=== FILE: README.md ===
# WebGL bus demo: matrices, bus motion and frame logic in Dafny

This project models the pure core of a small WebGL demo written in JavaScript:

- `matrices.js`: the 4×4 matrix constructors (perspective, pixel projection, orthographic, translation, rotations about x, y and z, scaling) and the helpers `translate`, `xRotate`, `yRotate`, `zRotate` and `scale`, each of which right-multiplies an accumulated matrix (`m := m × M`);
- `Bus.js`: the bus state (position, heading `yRotation`, `travelSpeed`) and `generateNextPosition`, one motion step with its four boundary cases for the square world [-500, 500]²;
- `Renderer.js`: `resizeCanvas`, `update`, the frame clock inside `startRendering`, and in `draw` the order in which the camera, view and view-projection matrices are composed and the draw calls issued, with their vertex counts checked against the data tables.

Numbers are Dafny `real`s. `Math.sin`, `Math.cos` and `Math.tan` are uninterpreted functions (`JsMath.Trig`), so each lemma holds for any choice of them. Where a lemma needs a value of one of them, the value appears in its `requires`. `Math.PI` is the exact rational 3.141592653589793.

gl-matrix is outside the model, so it is handled as follows (module `Linear`):

- A `Mat4` is stored as four columns, as gl-matrix stores it.
- `mat4.set` reads its sixteen arguments column by column.
- `mat4.multiply(out, a, b)` is the standard product `a × b`.
- `mat4.create` is the identity.
- `mat4.clone` is the identity on values.
- `mat4.rotateX` and `mat4.invert` are parameters of the renderer (`Render.Foreign`). `invert` returns `None` for a singular matrix. In that case the view keeps the identity it was created with, because gl-matrix writes its output only when the determinant is nonzero.
- When the canvas has a zero client side, JavaScript's aspect ratio is not a nonzero real number, and there are three cases:
  - Zero height and some width give aspect `Infinity`. The x scale f / aspect is then 0 and every other entry is finite. This real matrix is modelled as `Matrices.PerspectiveUnboundedAspect`.
  - Zero width and some height give aspect 0. The x scale is then an infinity, or NaN when f is 0.
  - Two zero sides give aspect NaN, so the x scale is NaN.

  The last two perspectives hold non-real entries. They are the parameter `Foreign.degenerate`. Every frame therefore has a picture, whatever the client size.

Modules:

- `Wrappers` (`wrappers.dfy`): `Option`.
- `JsMath` (`jsmath.dfy`): `Pi`, `Trig`.
- `Linear`: vectors, matrices, the product and its algebra.
- `Matrices`: `matrices.js`.
- `BusModel`: `Bus.js`.
- `Tables`: the colour and floor vertex tables.
- `Render`: `Renderer.js`.

Notes on the code:

- `BusModel.NextPosition` keeps the source's heading formulas at the four edges, including the −x one described under Findings. A mirrored variant exists only to state that finding.
- `draw` gives both objects the view-projection translated by (0, 0, 0). It never reads the `translation`, `rotation` or `scale` fields.
- `Renderer.js` never creates a `Bus`; it only calls the static upload functions. The bus step is therefore modelled on its own.
- `draw` does not read its `deltaTime` argument.

## Model

| member | source | states |
|---|---|---|
| Linear.Set | src/components/Canvas/Renderer/matrices.js:11-16 | mat4.set: sixteen arguments into four columns; its layout is stated by Linear.SetColumnMajor |
| Linear.SetColumnMajor | src/components/Canvas/Renderer/matrices.js:11-16 | argument k of mat4.set lands in row k mod 4 of column k div 4 |
| Linear.IdentityEntries | src/components/Canvas/Renderer/Renderer.js:155 | mat4.create has ones on the diagonal and zeros elsewhere |
| Linear.Identity | src/components/Canvas/Renderer/Renderer.js:155 | mat4.create; its entries are stated by Linear.IdentityEntries and its unit law by Linear.MulIdentity |
| Linear.Mul | src/components/Canvas/Renderer/Renderer.js:158-159 | mat4.multiply(out, a, b) as a × b; its entries are stated by Linear.MulEntry and its action by Linear.ApplyMul |
| Linear.MulEntry | src/components/Canvas/Renderer/matrices.js:101 | entry (i, j) of mat4.multiply's result is row i of a dotted with column j of b |
| Linear.ApplyMul | src/components/Canvas/Renderer/matrices.js:100-114 | applying a product to a vector applies the right factor first |
| Linear.MulAssociative | src/components/Canvas/Renderer/matrices.js:100-114 | the product is associative, so a chain of helpers is the product of its factors |
| Linear.MulIdentity | src/components/Canvas/Renderer/Renderer.js:155-159 | the identity is a unit on both sides of the product |
| Matrices.Perspective | src/components/Canvas/Renderer/matrices.js:7-18 | perspective(fieldOfView, aspect, near, far); what it does to a point is stated by Matrices.PerspectiveMapsPoint and Matrices.PerspectiveDepthRange |
| Matrices.PerspectiveUnboundedAspect | src/components/Canvas/Renderer/matrices.js:7-18 | perspective with aspect = Infinity, where f / aspect is 0; stated by Matrices.UnboundedAspectFlattensX |
| Matrices.Projection | src/components/Canvas/Renderer/matrices.js:19-28 | projection(width, height, depth); its corners are stated by Matrices.ProjectionCorners |
| Matrices.Ortographic | src/components/Canvas/Renderer/matrices.js:29-42 | ortographic as written; its ranges are stated by Matrices.OrtographicXZRange and Matrices.OrtographicYAsWritten |
| Matrices.OrtographicCorrected | src/components/Canvas/Renderer/matrices.js:29-42 | ortographic with the y scale 2/(top − bottom); its range is stated by Matrices.OrtographicCorrectedYRange |
| Matrices.Translation | src/components/Canvas/Renderer/matrices.js:43-52 | translation(tx, ty, tz); its action is stated by Matrices.TranslationMapsPoint |
| Matrices.XRotationOf | src/components/Canvas/Renderer/matrices.js:55-63 | the x rotation built from c and s; its action is stated by Matrices.XRotationFixesX |
| Matrices.YRotationOf | src/components/Canvas/Renderer/matrices.js:67-75 | the y rotation built from c and s; its action is stated by Matrices.YRotationFixesY |
| Matrices.ZRotationOf | src/components/Canvas/Renderer/matrices.js:79-87 | the z rotation built from c and s; its action is stated by Matrices.ZRotationFixesZ |
| Matrices.XRotation | src/components/Canvas/Renderer/matrices.js:53-64 | xRotation(angle), the x rotation at c = cos angle and s = sin angle |
| Matrices.YRotation | src/components/Canvas/Renderer/matrices.js:65-76 | yRotation(angle), the y rotation at c = cos angle and s = sin angle |
| Matrices.ZRotation | src/components/Canvas/Renderer/matrices.js:77-88 | zRotation(angle), the z rotation at c = cos angle and s = sin angle |
| Matrices.Scaling | src/components/Canvas/Renderer/matrices.js:89-99 | scaling(sx, sy, sz); its action is stated by Matrices.ScalingMapsPoint |
| Matrices.Translate | src/components/Canvas/Renderer/matrices.js:100-102 | translate(m, …) as m × translation; its columns are stated by Matrices.TranslateColumns |
| Matrices.XRotate | src/components/Canvas/Renderer/matrices.js:103-105 | xRotate(m, a) as m × xRotation(a); its columns are stated by Matrices.XRotateColumns |
| Matrices.YRotate | src/components/Canvas/Renderer/matrices.js:106-108 | yRotate(m, a) as m × yRotation(a); its columns are stated by Matrices.YRotateColumns |
| Matrices.ZRotate | src/components/Canvas/Renderer/matrices.js:109-111 | zRotate(m, a) as m × zRotation(a); its columns are stated by Matrices.ZRotateColumns |
| Matrices.Scale | src/components/Canvas/Renderer/matrices.js:112-114 | scale(m, …) as m × scaling; its columns are stated by Matrices.ScaleColumns |
| Matrices.TranslationMapsPoint | src/components/Canvas/Renderer/matrices.js:43-52 | translation adds tx·w, ty·w, tz·w to a vector, so (x, y, z, 1) goes to (x+tx, y+ty, z+tz, 1) |
| Matrices.ScalingMapsPoint | src/components/Canvas/Renderer/matrices.js:89-99 | scaling maps (x, y, z, w) to (sx·x, sy·y, sz·z, w) |
| Matrices.XRotationFixesX | src/components/Canvas/Renderer/matrices.js:53-64 | xRotation(a), built from c = cos a and s = sin a, keeps x and w and turns (y, z) to (c·y − s·z, s·y + c·z) |
| Matrices.YRotationFixesY | src/components/Canvas/Renderer/matrices.js:65-76 | yRotation(a), built from c = cos a and s = sin a, keeps y and w and turns (x, z) to (c·x + s·z, c·z − s·x) |
| Matrices.ZRotationFixesZ | src/components/Canvas/Renderer/matrices.js:77-88 | zRotation(a), built from c = cos a and s = sin a, keeps z and w and turns (x, y) to (c·x − s·y, s·x + c·y) |
| Matrices.XRotationKeepsLength | src/components/Canvas/Renderer/matrices.js:53-64 | when cos² + sin² = 1 the x rotation preserves the length of (x, y, z) |
| Matrices.PerspectiveMapsPoint | src/components/Canvas/Renderer/matrices.js:7-18 | clip x and y are the view x and y scaled by f/aspect and f, with f = tan(π/2 − fov/2), and clip w is −z |
| Matrices.UnboundedAspectFlattensX | src/components/Canvas/Renderer/matrices.js:8-16 | with aspect = Infinity the y, z and w columns are those of every finite-aspect perspective, and every point goes to clip x = 0 |
| Matrices.PerspectiveScaleIgnoresDepth | src/components/Canvas/Renderer/matrices.js:8-13 | the x and y columns do not depend on near or far |
| Matrices.PerspectiveDepthRange | src/components/Canvas/Renderer/matrices.js:7-18 | for 0 < near < far, z = −near reaches NDC depth −1 with w = near, and z = −far reaches +1 with w = far |
| Matrices.ProjectionCorners | src/components/Canvas/Renderer/matrices.js:19-28 | pixel (0, 0) goes to clip (−1, 1) and pixel (width, height) to (1, −1) |
| Matrices.UnitInterval | src/components/Canvas/Renderer/matrices.js:32-37 | for lo ≠ hi, the row 2/(hi − lo)·u + (lo + hi)/(lo − hi) sends lo to −1 and hi to +1 |
| Matrices.UnitDepth | src/components/Canvas/Renderer/matrices.js:34-38 | for near ≠ far, the ortographic z row sends −near to −1 and −far to +1 |
| Matrices.OrtographicXZRange | src/components/Canvas/Renderer/matrices.js:29-42 | x = left and x = right go to −1 and +1; z = −near and z = −far go to −1 and +1 |
| Matrices.OrtographicYAsWritten | src/components/Canvas/Renderer/matrices.js:33-37 | with bottom = 0 and top = 2 the y row as written sends y = top to −3, outside [−1, 1] |
| Matrices.OrtographicCorrectedYRange | src/components/Canvas/Renderer/matrices.js:29-42 | with the y scale 2/(top − bottom), y = bottom and y = top go to −1 and +1 |
| Matrices.TranslateColumns | src/components/Canvas/Renderer/matrices.js:100-102 | translate keeps m's first three columns and replaces the fourth by m's image of (tx, ty, tz, 1) |
| Matrices.ScaleColumns | src/components/Canvas/Renderer/matrices.js:112-114 | scale multiplies m's first three columns by sx, sy, sz and keeps the fourth |
| Matrices.XRotateColumns | src/components/Canvas/Renderer/matrices.js:103-105 | xRotate keeps columns 0 and 3 and mixes columns 1 and 2 by (cos, sin) |
| Matrices.YRotateColumns | src/components/Canvas/Renderer/matrices.js:106-108 | yRotate keeps columns 1 and 3 and mixes columns 0 and 2 by (cos, sin) |
| Matrices.ZRotateColumns | src/components/Canvas/Renderer/matrices.js:109-111 | zRotate keeps columns 2 and 3 and mixes columns 0 and 1 by (cos, sin) |
| Matrices.TranslateActsFirst | src/components/Canvas/Renderer/matrices.js:100-102 | a translated matrix applied to a point is m applied to the translated point |
| Matrices.TranslateByZero | src/components/Canvas/Renderer/matrices.js:100-102 | translate by (0, 0, 0) leaves m unchanged |
| Matrices.ScaleByOne | src/components/Canvas/Renderer/matrices.js:112-114 | scale by (1, 1, 1) leaves m unchanged |
| Matrices.TranslateTwice | src/components/Canvas/Renderer/matrices.js:100-102 | two successive translates equal one translate by the summed offsets |
| Matrices.HelpersCompose | src/components/Canvas/Renderer/matrices.js:100-105 | translate then xRotate is m times (translation × rotation), in call order |
| Matrices.XRotationFixesOrigin | src/components/Canvas/Renderer/matrices.js:53-64 | the x rotation fixes the origin |
| Matrices.TranslateThenXRotate | src/components/Canvas/Renderer/matrices.js:100-105 | translating then rotating places the origin at m's image of the unrotated offset |
| Matrices.XRotateThenTranslate | src/components/Canvas/Renderer/matrices.js:100-105 | rotating then translating places the origin at m's image of the rotated offset |
| Matrices.HelpersDoNotCommute | src/components/Canvas/Renderer/matrices.js:100-105 | with a quarter turn (c = 0, s = 1), translate-then-xRotate and xRotate-then-translate differ for every m that tells (0, d, 0) from (0, 0, d) |
| Matrices.HelpersDoNotCommuteFromIdentity | src/components/Canvas/Renderer/matrices.js:100-105 | from mat4.create, translating by (0, d, 0) and quarter-turning give different matrices in the two orders whenever d ≠ 0 |
| BusModel.Advance | src/components/Canvas/Renderer/models/Bus/Bus.js:24-25 | the pre-clamp point: position + travelSpeed·(sin h, cos h)·deltaTime·0.001; used by every BusModel lemma |
| BusModel.NextPosition | src/components/Canvas/Renderer/models/Bus/Bus.js:23-42 | the pre-clamp point is position + travelSpeed·(sin h, cos h)·deltaTime·0.001; past −x: x = −499 and heading 3h − 3π; past +x: x = 499 and heading 2π − h; otherwise past −y: y = −499 and heading h − π/2; otherwise past +y: y = 499 and heading π; inside: the point and h; travelSpeed never changes |
| BusModel.OneAxisClamped | src/components/Canvas/Renderer/models/Bus/Bus.js:27-39 | at most one coordinate is clamped, x is clamped exactly when it left the range, and then y is stored unclamped |
| BusModel.StaysInSquare | src/components/Canvas/Renderer/models/Bus/Bus.js:27-41 | when the pre-clamp point leaves the square on at most one axis, the new position is in the square |
| BusModel.RestsWhenNoTimePasses | src/components/Canvas/Renderer/models/Bus/Bus.js:23-42 | with deltaTime 0 and a start inside the square the bus is unchanged |
| BusModel.CrossesTopEdge | src/components/Canvas/Renderer/models/Bus/Bus.js:36-38 | from the origin heading 0 at speed 100 for 6000 ms the bus ends at (0, 499) facing π |
| BusModel.MinusXEdgeTraps | src/components/Canvas/Renderer/models/Bus/Bus.js:27-29 | a bus at x = −499 heading 3π/2 whose step crosses −500 stays at x = −499 with heading 3π/2 for any number of steps |
| BusModel.NextPositionMirrored | src/components/Canvas/Renderer/models/Bus/Bus.js:27-32 | with the −x edge treated like the +x edge, both x edges put the bus one unit inside the crossed edge at the reached y and send h to 2π − h, and every other case is as in the source |
| BusModel.MirroredXEdgeReverses | src/components/Canvas/Renderer/models/Bus/Bus.js:27-32 | under the mirrored rule an x-edge crossing negates the x velocity |
| BusModel.MirroredMinusXEdgeReleases | src/components/Canvas/Renderer/models/Bus/Bus.js:27-29 | under the mirrored rule the trapped bus turns to π/2 and its next step moves it off the wall |
| Tables.Repeat | src/components/Canvas/Renderer/models/Bus/colors.js:2-43 | a table of n equal entries has 3·n components, and every vertex v is the entry |
| Tables.BusColors | src/components/Canvas/Renderer/models/Bus/colors.js:2-43 | the bus colour table; its contents are stated by Tables.BusColorsContents |
| Tables.FloorGeometry | src/components/Canvas/Renderer/models/floor/geometry.js:4-11 | the floor geometry table; its contents are stated by Tables.FloorContents |
| Tables.FloorColors | src/components/Canvas/Renderer/models/floor/colors.js:6-13 | the floor colour table; its contents are stated by Tables.FloorContents |
| Tables.BusColorsContents | src/components/Canvas/Renderer/models/Bus/colors.js:2-43 | the bus colour table has 90 bytes, every vertex (255, 193, 7) |
| Tables.FloorContents | src/components/Canvas/Renderer/models/floor/geometry.js:4-11 | the floor geometry and colour tables have 18 entries each; every floor vertex is a corner (±500, 0, ±500) and every colour byte is 150 |
| Render.Initial | src/components/Canvas/Renderer/Renderer.js:36-43 | the field initialisers, with the Math.random colour as parameters and the 800 × 600 canvas; its camera is stated by Render.InitialCamera |
| Render.ResizeCanvas | src/components/Canvas/Renderer/Renderer.js:294-303 | the result is true exactly when the stored width or height differs from the client's; the stored size becomes the client size |
| Render.ResizeIdempotent | src/components/Canvas/Renderer/Renderer.js:294-303 | a second resize to the same client size returns false and changes nothing |
| Render.Update | src/components/Canvas/Renderer/Renderer.js:285-288 | rotation x grows by deltaTime·0.001 and rotation y by deltaTime·0.0007; rotation z and every other field are unchanged |
| Render.UpdateAdditive | src/components/Canvas/Renderer/Renderer.js:285-288 | two updates equal one update by the summed time, and an update by 0 changes nothing |
| Render.ProjectionOf | src/components/Canvas/Renderer/Renderer.js:143-146 | perspective(fieldOfView, clientWidth/clientHeight, 1, 3000); for a zero height the aspect is Infinity, and for a zero width it is the foreign matrix |
| Render.FlatClientProjection | src/components/Canvas/Renderer/Renderer.js:143-146 | for a client of zero height and some width every point goes to clip x = 0 with clip w = −z, and the depth columns are those of a client of height 1 |
| Render.CameraBeforeTilt | src/components/Canvas/Renderer/Renderer.js:149-150 | yRotation(cameraAngle) then translate(0, radius, 2·radius); stated by Render.CameraComposition and Render.CameraOrbit |
| Render.Camera | src/components/Canvas/Renderer/Renderer.js:149-151 | the untilted camera passed through the foreign rotateX by −0.4 |
| Render.View | src/components/Canvas/Renderer/Renderer.js:155-156 | mat4.create overwritten by mat4.invert of the camera when it succeeds; stated by Render.ViewUndoesCamera and Render.SingularCameraKeepsProjection |
| Render.ViewProjection | src/components/Canvas/Renderer/Renderer.js:158-159 | projection × view, in that order; stated by Render.ViewUndoesCamera |
| Render.CameraComposition | src/components/Canvas/Renderer/Renderer.js:149-150 | before rotateX the camera is yRotation(cameraAngle) × translation(0, radius, 2·radius) |
| Render.CameraOrbit | src/components/Canvas/Renderer/Renderer.js:149-150 | before rotateX the camera puts the origin at (2r·sin a, r, 2r·cos a) |
| Render.InitialCamera | src/components/Canvas/Renderer/Renderer.js:41-43 | with the initial fields the untilted camera starts at (1000·sin 0.1π, 500, 1000·cos 0.1π) |
| Render.InitialFocalLength | src/components/Canvas/Renderer/Renderer.js:40 | with the initial 60° field of view, the perspective of a client of nonzero width has focal length tan(π/3), whatever its height |
| Render.ViewUndoesCamera | src/components/Canvas/Renderer/Renderer.js:155-159 | when invert yields a left inverse of the camera, view-projection × camera is the projection: projection × view, in that order |
| Render.SingularCameraKeepsProjection | src/components/Canvas/Renderer/Renderer.js:155-159 | when invert refuses the camera the view stays the identity and the view-projection is the projection |
| Render.ObjectMatrix | src/components/Canvas/Renderer/Renderer.js:208-209 | the cloned view-projection translated by (0, 0, 0) is the view-projection |
| Render.Draw | src/components/Canvas/Renderer/Renderer.js:124-278 | for every client size: the viewport is the client size; only the canvas size changes in the state; exactly two calls, the bus and then the floor, as triangles from offset 0 with the view-projection; each count times 3 is its colour table's length, and the floor's is also the floor geometry's |
| Render.DrawUpdateCommute | src/components/Canvas/Renderer/Renderer.js:111-112 | drawing before or after update gives the same picture, and the two leave the same state |
| Render.Deltas | src/components/Canvas/Renderer/Renderer.js:105-109 | each delta is its timestamp minus the previous one, the first minus the starting value |
| Render.FirstDelta | src/components/Canvas/Renderer/Renderer.js:105-109 | starting from 0 the first delta is the first timestamp |
| Render.DeltasSum | src/components/Canvas/Renderer/Renderer.js:105-109 | the deltas sum to the last timestamp minus the starting value |
| Render.NonNegativeFromOrdered | src/components/Canvas/Renderer/Renderer.js:105-109 | when the starting value followed by the timestamps never decreases, no delta is negative |
| Render.OrderedFromNonNegative | src/components/Canvas/Renderer/Renderer.js:105-109 | when no delta is negative, the starting value followed by the timestamps never decreases |
| Render.DeltasNonNegative | src/components/Canvas/Renderer/Renderer.js:105-109 | all deltas are non-negative exactly when the starting value followed by the timestamps never decreases |
| Render.Start | src/components/Canvas/Renderer/Renderer.js:105 | startRendering's closure state: then = 0 and the scene; used by Render.StartClock |
| Render.Render | src/components/Canvas/Renderer/Renderer.js:106-113 | a frame's delta is now minus the stored time, which becomes now; it draws with the scene as it was and then updates the drawn state by the same delta |
| Render.Run | src/components/Canvas/Renderer/Renderer.js:113-118 | one frame per animation callback |
| Render.RenderNext | src/components/Canvas/Renderer/Renderer.js:108-112 | the loop a frame leaves is then := now and the scene resized to the client and updated by the delta, whatever draw puts on screen |
| Render.RunFirst | src/components/Canvas/Renderer/Renderer.js:113-118 | a run is its first frame followed by the run from the loop that frame leaves |
| Render.RunChains | src/components/Canvas/Renderer/Renderer.js:106-118 | each frame renders from the loop state the previous frame left |
| Render.FrameDeltas | src/components/Canvas/Renderer/Renderer.js:108-111 | the deltaTime each frame passes to draw and update, one per frame in order |
| Render.FrameDeltasFirst | src/components/Canvas/Renderer/Renderer.js:108-111 | the frame deltas of a first frame and the rest are its delta followed by theirs |
| Render.DeltasFirst | src/components/Canvas/Renderer/Renderer.js:105-109 | the clock's deltas of a tick sequence are the first tick's time less the start, then the deltas of the rest from that time |
| Render.RunDeltasFirst | src/components/Canvas/Renderer/Renderer.js:106-113 | the frame deltas of a run are now − then for the first tick, then those of the run from the bookkeeping's next loop |
| Render.RunDeltas | src/components/Canvas/Renderer/Renderer.js:105-112 | the sequence of deltas the frames see equals the clock's deltas of their timestamps from the starting then |
| Render.AfterFirst | src/components/Canvas/Renderer/Renderer.js:113-118 | the loop after a run is the loop after the run from the first frame's next loop |
| Render.RunClock | src/components/Canvas/Renderer/Renderer.js:106-118 | the loop after the frames is the one the bookkeeping alone reaches, whatever draw puts on screen |
| Render.ClockEnd | src/components/Canvas/Renderer/Renderer.js:108-109 | by the bookkeeping, then ends at the last timestamp and the canvas at the last client size |
| Render.ClockTurns | src/components/Canvas/Renderer/Renderer.js:285-288 | by the bookkeeping, rotation x and y grow by 0.001 and 0.0007 times the time since the start, rotation z is unchanged, and the fields other than the rotation and canvas keep their values |
| Render.RunTotals | src/components/Canvas/Renderer/Renderer.js:104-114 | after the frames the stored time is the last timestamp; rotation x and y have grown by 0.001 and 0.0007 times the time elapsed; rotation z is unchanged; the canvas has the last client size; no other field changed |
| Render.StartClock | src/components/Canvas/Renderer/Renderer.js:104-111 | from startRendering the first frame's delta is its timestamp, and the deltas the frames pass to draw add up to the last timestamp |

## Left out

- WebGL calls are not modelled: bufferData, vertexAttribPointer, enableVertexAttribArray, bindBuffer, viewport, clearColor, clear, enable, useProgram, uniformMatrix4fv and drawArrays. They are side effects on a backend outside the model. A frame is described by its viewport size and its list of draw calls.
- The Renderer constructor is not modelled: looking up the canvas, the GL context, shader compilation, attribute and uniform locations, buffer creation and its early returns. These are host and GL plumbing.
- `helpers.js` (compileShader, createShaderProgram, randomInt) and the shader sources are not modelled. They are GL status queries, randomness and opaque text.
- `Canvas.js` is not modelled, and neither is the scheduling done by `requestAnimationFrame`. The callbacks appear as a sequence of `Render.Tick` values, each carrying a timestamp and the client size at that moment. The initial 800 × 600 canvas size comes from the element `Canvas.js` creates.
- `Math.random()` is not modelled. It becomes the three colour parameters of `Render.Initial`.
- gl-matrix `mat4.invert` and `mat4.rotateX` are not modelled. They are parameters (`Render.Foreign`), so the tilt by −0.4 and the inverse are not computed.
- Rounding is not modelled: IEEE-754 rounding, Float32Array storage, and the infinities and NaNs that division by zero produces in JavaScript.
- Matrices.Perspective: requires a nonzero aspect and near ≠ far, because the JavaScript infinities and NaNs are not modelled. The Infinity aspect of a zero-height client is `Matrices.PerspectiveUnboundedAspect`.
- Matrices.Projection: requires a nonzero width, height and depth, for the same reason.
- Matrices.Ortographic: requires left ≠ right, bottom ≠ top and near ≠ far, for the same reason.
- The perspective JavaScript builds for a client of zero width is not modelled. It has an infinite or NaN x scale and is the parameter `Foreign.degenerate`. `Render.Draw` and the frame lemmas hold for every client size, but nothing is stated about that matrix.
- Render.InitialFocalLength: requires a client of nonzero width, because for the others the projection is the foreign matrix above.
- The `|0` in resizeCanvas is not modelled. Client sizes are non-negative integers, and for those below 2³¹ it changes nothing.
- `Bus/geometry.js` is not part of this model. The bus's vertex count is checked against its colour table only.
- `car/geometry.js` is not modelled. It is unused by the renderer.
- The fields `translation`, `rotation`, `scale`, `color` and `numFs` are carried in the state, but `draw` never reads them.
- The true values of sin, cos and tan are not modelled. Lemmas that need one, such as sin(3π/2) = −1, take it as a hypothesis.

## Findings

| source | as written | input that shows it | evidently intended | confidence | as-written member | corrected member |
|---|---|---|---|---|---|---|
| src/components/Canvas/Renderer/matrices.js:33-37 | the y scale is −2/(top − bottom) while the y offset (bottom + top)/(bottom − top) has the standard sign, so y = bottom and y = top land on ±1 only when bottom + top = 0, and then with the signs swapped (bottom to +1, top to −1) | bottom = 0, top = 2: y = top maps to −3 | y scale 2/(top − bottom), which sends bottom to −1 and top to +1 as x and z are sent | not executed | Matrices.OrtographicYAsWritten | Matrices.OrtographicCorrectedYRange |
| src/components/Canvas/Renderer/models/Bus/Bus.js:27-29 | the −x edge sets the heading to h − (π/2 − (h − π))·2 = 3h − 3π, whose fixed point is 3π/2, straight toward −x | a bus at x = −499 with heading 3π/2 whose step covers more than one unit is clamped back to x = −499 with heading 3π/2 on every step | reflect the heading like the +x edge does, 2π − h, so the bus turns to π/2 and leaves the wall | not executed | BusModel.MinusXEdgeTraps | BusModel.MirroredMinusXEdgeReleases |

`BusModel.NextPosition` is the model of the bus step and keeps the formula as written. `BusModel.NextPositionMirrored` and `BusModel.MirroredXEdgeReverses` state the corrected rule.

=== FILE: bus.dfy ===
/** The moving bus of src/components/Canvas/Renderer/models/Bus/Bus.js:
    one step of its motion along its heading, with the four boundary cases
    of the square world [-500, 500]². */
module BusModel {
  import opened JsMath

  datatype Vec2 = Vec2(x: real, y: real)

  /** yRotation is the heading in radians: the bus moves along
      (sin yRotation, cos yRotation). */
  datatype Bus = Bus(position: Vec2, yRotation: real, travelSpeed: real)

  /** Half the side of the world square, and where a bus that left it is put back. */
  const Bound: real := 500.0
  const Inset: real := 499.0

  predicate InSquare(p: Vec2) {
    -Bound <= p.x <= Bound && -Bound <= p.y <= Bound
  }

  /** The point reached after deltaTime milliseconds, before any clamping. */
  function Advance(b: Bus, deltaTime: real, trig: Trig): Vec2 {
    Vec2(b.position.x + b.travelSpeed * trig.sin(b.yRotation) * deltaTime * 0.001,
         b.position.y + b.travelSpeed * trig.cos(b.yRotation) * deltaTime * 0.001)
  }

  /** generateNextPosition, with the heading updates written as in the
      source. The result is stated in closed form: an edge crossing puts the
      crossed coordinate one unit inside the edge and sets the heading to
      3h - 3π (-x edge), 2π - h (+x edge), h - π/2 (-y edge) or π (+y edge);
      the y edges are looked at only when x stayed in range. */
  function NextPosition(b: Bus, deltaTime: real, trig: Trig): (r: Bus)
    ensures r.travelSpeed == b.travelSpeed
    ensures var p, h := Advance(b, deltaTime, trig), b.yRotation;
      && (p.x < -Bound ==> r.position == Vec2(-Inset, p.y) && r.yRotation == 3.0 * h - 3.0 * Pi)
      && (p.x > Bound ==> r.position == Vec2(Inset, p.y) && r.yRotation == 2.0 * Pi - h)
      && (-Bound <= p.x <= Bound && p.y < -Bound ==> r.position == Vec2(p.x, -Inset) && r.yRotation == h - 0.5 * Pi)
      && (-Bound <= p.x <= Bound && p.y > Bound ==> r.position == Vec2(p.x, Inset) && r.yRotation == Pi)
      && (InSquare(p) ==> r.position == p && r.yRotation == h)
  {
    var p := Advance(b, deltaTime, trig);
    var h := b.yRotation;
    if p.x < -500.0 then
      Bus(Vec2(-499.0, p.y), h - ((0.5 * Pi) - (h - 1.0 * Pi)) * 2.0, b.travelSpeed)
    else if p.x > 500.0 then
      Bus(Vec2(499.0, p.y), h + ((0.5 * Pi) - h) * 2.0 + 1.0 * Pi, b.travelSpeed)
    else if p.y < -500.0 then
      Bus(Vec2(p.x, -499.0), h - 0.5 * Pi, b.travelSpeed)
    else if p.y > 500.0 then
      Bus(Vec2(p.x, 499.0), h + 0.5 * Pi + ((0.5 * Pi) - h), b.travelSpeed)
    else
      Bus(p, h, b.travelSpeed)
  }

  /** At most one coordinate is clamped per step, and x goes first: when
      x leaves the square, y is stored as reached even if it left too. */
  lemma OneAxisClamped(b: Bus, deltaTime: real, trig: Trig)
    ensures var p, r := Advance(b, deltaTime, trig), NextPosition(b, deltaTime, trig);
      (r.position.x == p.x || r.position.y == p.y)
      && (!(-Bound <= p.x <= Bound) ==> r.position.y == p.y)
      && (r.position.x != p.x <==> !(-Bound <= p.x <= Bound))
  {
  }

  /** When the unclamped point left the square on at most one axis, the
      bus ends up inside it. */
  lemma StaysInSquare(b: Bus, deltaTime: real, trig: Trig)
    requires var p := Advance(b, deltaTime, trig);
      -Bound <= p.x <= Bound || -Bound <= p.y <= Bound
    ensures InSquare(NextPosition(b, deltaTime, trig).position)
  {
  }

  /** A bus inside the square does not move when no time has passed. */
  lemma RestsWhenNoTimePasses(b: Bus, trig: Trig)
    requires InSquare(b.position)
    ensures NextPosition(b, 0.0, trig) == b
  {
  }

  /** From the origin, heading 0 (straight along +y) at speed 100 for six
      seconds, the bus reaches y = 600 and is put back at y = 499 facing π. */
  lemma CrossesTopEdge(trig: Trig)
    requires trig.sin(0.0) == 0.0 && trig.cos(0.0) == 1.0
    ensures NextPosition(Bus(Vec2(0.0, 0.0), 0.0, 100.0), 6000.0, trig) == Bus(Vec2(0.0, 499.0), Pi, 100.0)
  {
    assert Advance(Bus(Vec2(0.0, 0.0), 0.0, 100.0), 6000.0, trig) == Vec2(0.0, 600.0);
  }

  /** n steps of the same length. */
  function Steps(b: Bus, deltaTime: real, trig: Trig, n: nat): Bus
    decreases n
  {
    if n == 0 then b else Steps(NextPosition(b, deltaTime, trig), deltaTime, trig, n - 1)
  }

  /** Two buses at the same x, with the same heading and speed, reach the same x. */
  lemma SameStride(b: Bus, r: Bus, deltaTime: real, trig: Trig)
    requires r.position.x == b.position.x && r.yRotation == b.yRotation && r.travelSpeed == b.travelSpeed
    ensures Advance(r, deltaTime, trig).x == Advance(b, deltaTime, trig).x
  {
  }

  /** The -x rule 3h - 3π keeps the heading 3π/2 (straight toward -x) as
      it is. A bus so headed at x = -499 whose step would carry it past the
      -x edge is clamped back to x = -499 with the same heading, so it
      crosses again on every later step and never leaves the wall. */
  lemma {:induction false} MinusXEdgeTraps(b: Bus, deltaTime: real, trig: Trig, n: nat)
    requires b.position.x == -Inset && b.yRotation == 1.5 * Pi
    requires Advance(b, deltaTime, trig).x < -Bound
    ensures Steps(b, deltaTime, trig, n).position.x == -Inset
    ensures Steps(b, deltaTime, trig, n).yRotation == 1.5 * Pi
    decreases n
  {
    if n > 0 {
      var r := NextPosition(b, deltaTime, trig);
      SameStride(b, r, deltaTime, trig);
      MinusXEdgeTraps(r, deltaTime, trig, n - 1);
    }
  }

  /** generateNextPosition with the -x edge mirrored like the +x edge:
      both x edges send the heading h to 2π - h. */
  function NextPositionMirrored(b: Bus, deltaTime: real, trig: Trig): (r: Bus)
    ensures r.travelSpeed == b.travelSpeed
    ensures var p := Advance(b, deltaTime, trig);
      !(-Bound <= p.x <= Bound) ==>
        r.position == Vec2(if p.x < -Bound then -Inset else Inset, p.y) && r.yRotation == 2.0 * Pi - b.yRotation
    ensures var p := Advance(b, deltaTime, trig);
      -Bound <= p.x <= Bound ==> r == NextPosition(b, deltaTime, trig)
  {
    var p := Advance(b, deltaTime, trig);
    if p.x < -500.0 then
      Bus(Vec2(-499.0, p.y), 2.0 * Pi - b.yRotation, b.travelSpeed)
    else
      NextPosition(b, deltaTime, trig)
  }

  /** With the mirrored rule an x-edge crossing reverses the x velocity,
      wherever the sine is odd about π. */
  lemma MirroredXEdgeReverses(b: Bus, deltaTime: real, trig: Trig)
    requires !(-Bound <= Advance(b, deltaTime, trig).x <= Bound)
    requires trig.sin(2.0 * Pi - b.yRotation) == -trig.sin(b.yRotation)
    ensures var r := NextPositionMirrored(b, deltaTime, trig);
      r.travelSpeed * trig.sin(r.yRotation) == -(b.travelSpeed * trig.sin(b.yRotation))
  {
  }

  /** The trapped bus of MinusXEdgeTraps, under the mirrored rule, turns
      to π/2 and its next step takes it away from the wall. */
  lemma MirroredMinusXEdgeReleases(b: Bus, deltaTime: real, trig: Trig)
    requires b.position.x == -Inset && b.yRotation == 1.5 * Pi
    requires trig.sin(1.5 * Pi) == -1.0 && trig.sin(0.5 * Pi) == 1.0
    requires b.travelSpeed * deltaTime * 0.001 > 1.0
    ensures var r := NextPositionMirrored(b, deltaTime, trig);
      r.position.x == -Inset && r.yRotation == 0.5 * Pi && Advance(r, deltaTime, trig).x > -Inset
  {
    assert Advance(b, deltaTime, trig).x == -Inset - b.travelSpeed * deltaTime * 0.001;
    var r := NextPositionMirrored(b, deltaTime, trig);
    assert r.yRotation == 0.5 * Pi;
    assert Advance(r, deltaTime, trig).x == -Inset + b.travelSpeed * deltaTime * 0.001;
  }
}

=== FILE: jsmath.dfy ===
/** The pieces of the JavaScript Math object the demo uses. */
module JsMath {

  /** Math.PI as JavaScript prints it (its shortest round-trip decimal),
      taken as an exact rational; the double itself differs from it only
      past the sixteenth significant digit. */
  const Pi: real := 3.141592653589793

  /** Math.sin, Math.cos and Math.tan, left uninterpreted: every lemma that
      mentions a Trig holds for any choice of the three functions. */
  datatype Trig = Trig(sin: real -> real, cos: real -> real, tan: real -> real)
}

=== FILE: linear.dfy ===
/** Column-major 4x4 matrices over the reals: the Mat4 values of gl-matrix,
    its mat4.create, mat4.set and mat4.multiply. */
module Linear {

  datatype Vec4 = Vec4(x: real, y: real, z: real, w: real)

  /** A matrix stored as its four columns, as gl-matrix stores a Mat4. */
  datatype Mat4 = Mat4(c0: Vec4, c1: Vec4, c2: Vec4, c3: Vec4)

  function Plus(u: Vec4, v: Vec4): Vec4 {
    Vec4(u.x + v.x, u.y + v.y, u.z + v.z, u.w + v.w)
  }

  function Times(k: real, v: Vec4): Vec4 {
    Vec4(v.x * k, v.y * k, v.z * k, v.w * k)
  }

  function Dot(u: Vec4, v: Vec4): real {
    u.x * v.x + u.y * v.y + u.z * v.z + u.w * v.w
  }

  /** Component i of a vector, 0 = x .. 3 = w. */
  function Component(v: Vec4, i: int): real
    requires 0 <= i < 4
  {
    if i == 0 then v.x else if i == 1 then v.y else if i == 2 then v.z else v.w
  }

  function Column(m: Mat4, j: int): Vec4
    requires 0 <= j < 4
  {
    if j == 0 then m.c0 else if j == 1 then m.c1 else if j == 2 then m.c2 else m.c3
  }

  /** The entry in row i, column j. */
  function At(m: Mat4, i: int, j: int): real
    requires 0 <= i < 4 && 0 <= j < 4
  {
    Component(Column(m, j), i)
  }

  function Row(m: Mat4, i: int): Vec4
    requires 0 <= i < 4
  {
    Vec4(Component(m.c0, i), Component(m.c1, i), Component(m.c2, i), Component(m.c3, i))
  }

  /** mat4.set: the sixteen arguments are read column by column. */
  function Set(a0: real, a1: real, a2: real, a3: real,
               a4: real, a5: real, a6: real, a7: real,
               a8: real, a9: real, a10: real, a11: real,
               a12: real, a13: real, a14: real, a15: real): Mat4
  {
    Mat4(Vec4(a0, a1, a2, a3), Vec4(a4, a5, a6, a7),
         Vec4(a8, a9, a10, a11), Vec4(a12, a13, a14, a15))
  }

  /** Argument k of mat4.set lands in row k % 4 of column k / 4. */
  lemma SetColumnMajor(a0: real, a1: real, a2: real, a3: real,
                       a4: real, a5: real, a6: real, a7: real,
                       a8: real, a9: real, a10: real, a11: real,
                       a12: real, a13: real, a14: real, a15: real)
    ensures var m := Set(a0, a1, a2, a3, a4, a5, a6, a7, a8, a9, a10, a11, a12, a13, a14, a15);
            var args := [a0, a1, a2, a3, a4, a5, a6, a7, a8, a9, a10, a11, a12, a13, a14, a15];
            forall k :: 0 <= k < 16 ==> At(m, k % 4, k / 4) == args[k]
  {
  }

  /** mat4.create: the identity matrix. */
  function Identity(): Mat4 {
    Set(1.0, 0.0, 0.0, 0.0,
        0.0, 1.0, 0.0, 0.0,
        0.0, 0.0, 1.0, 0.0,
        0.0, 0.0, 0.0, 1.0)
  }

  lemma IdentityEntries(i: int, j: int)
    requires 0 <= i < 4 && 0 <= j < 4
    ensures At(Identity(), i, j) == if i == j then 1.0 else 0.0
  {
  }

  /** The matrix applied to a column vector: component i is row i of the
      matrix dotted with the vector. */
  function Apply(m: Mat4, v: Vec4): Vec4 {
    Vec4(m.c0.x * v.x + m.c1.x * v.y + m.c2.x * v.z + m.c3.x * v.w,
         m.c0.y * v.x + m.c1.y * v.y + m.c2.y * v.z + m.c3.y * v.w,
         m.c0.z * v.x + m.c1.z * v.y + m.c2.z * v.z + m.c3.z * v.w,
         m.c0.w * v.x + m.c1.w * v.y + m.c2.w * v.z + m.c3.w * v.w)
  }

  /** The columns of m weighted by the components of v. */
  function Weighted(m: Mat4, v: Vec4): Vec4 {
    Plus(Plus(Plus(Times(v.x, m.c0), Times(v.y, m.c1)), Times(v.z, m.c2)), Times(v.w, m.c3))
  }

  lemma ApplyColumnsAt(m: Mat4, v: Vec4, i: int)
    requires 0 <= i < 4
    ensures Component(Apply(m, v), i) == Component(Weighted(m, v), i)
  {
  }

  /** Applying m to v weights the columns of m by the components of v. */
  lemma ApplyColumns(m: Mat4, v: Vec4)
    ensures Apply(m, v) == Weighted(m, v)
  {
    ApplyColumnsAt(m, v, 0);
    ApplyColumnsAt(m, v, 1);
    ApplyColumnsAt(m, v, 2);
    ApplyColumnsAt(m, v, 3);
  }

  /** mat4.multiply(out, a, b): out = a × b, column j of the product being
      a applied to column j of b. */
  function Mul(a: Mat4, b: Mat4): Mat4 {
    Mat4(Apply(a, b.c0), Apply(a, b.c1), Apply(a, b.c2), Apply(a, b.c3))
  }

  /** Component i of m applied to v is row i of m dotted with v. */
  lemma ApplyRow(m: Mat4, v: Vec4, i: int)
    requires 0 <= i < 4
    ensures Component(Apply(m, v), i) == Dot(Row(m, i), v)
  {
  }

  /** The product is the standard one: entry (i, j) is row i of a dotted
      with column j of b. */
  lemma MulEntry(a: Mat4, b: Mat4, i: int, j: int)
    requires 0 <= i < 4 && 0 <= j < 4
    ensures At(Mul(a, b), i, j) == Dot(Row(a, i), Column(b, j))
  {
    assert Column(Mul(a, b), j) == Apply(a, Column(b, j));
    ApplyRow(a, Column(b, j), i);
  }

  lemma DotPlus(r: Vec4, u: Vec4, v: Vec4)
    ensures Dot(r, Plus(u, v)) == Dot(r, u) + Dot(r, v)
  {
  }

  lemma DotTimes(r: Vec4, k: real, v: Vec4)
    ensures Dot(r, Times(k, v)) == k * Dot(r, v)
  {
  }

  lemma ComponentTimes(k: real, v: Vec4, i: int)
    requires 0 <= i < 4
    ensures Component(Times(k, v), i) == k * Component(v, i)
  {
  }

  /** Two vectors with the same four components are equal. */
  lemma Components(u: Vec4, v: Vec4)
    requires forall i :: 0 <= i < 4 ==> Component(u, i) == Component(v, i)
    ensures u == v
  {
    assert Component(u, 0) == Component(v, 0);
    assert Component(u, 1) == Component(v, 1);
    assert Component(u, 2) == Component(v, 2);
    assert Component(u, 3) == Component(v, 3);
  }

  lemma ApplyPlus(m: Mat4, u: Vec4, v: Vec4)
    ensures Apply(m, Plus(u, v)) == Plus(Apply(m, u), Apply(m, v))
  {
    forall i | 0 <= i < 4
      ensures Component(Apply(m, Plus(u, v)), i) == Component(Plus(Apply(m, u), Apply(m, v)), i)
    {
      DotPlus(Row(m, i), u, v);
      ApplyRow(m, Plus(u, v), i);
      ApplyRow(m, u, i);
      ApplyRow(m, v, i);
    }
    Components(Apply(m, Plus(u, v)), Plus(Apply(m, u), Apply(m, v)));
  }

  lemma ApplyTimesAt(m: Mat4, k: real, v: Vec4, i: int)
    requires 0 <= i < 4
    ensures Component(Apply(m, Times(k, v)), i) == Component(Times(k, Apply(m, v)), i)
  {
    calc {
      Component(Apply(m, Times(k, v)), i);
      == { ApplyRow(m, Times(k, v), i); }
      Dot(Row(m, i), Times(k, v));
      == { DotTimes(Row(m, i), k, v); }
      k * Dot(Row(m, i), v);
      == { ApplyRow(m, v, i); }
      k * Component(Apply(m, v), i);
      == { ComponentTimes(k, Apply(m, v), i); }
      Component(Times(k, Apply(m, v)), i);
    }
  }

  lemma ApplyTimes(m: Mat4, k: real, v: Vec4)
    ensures Apply(m, Times(k, v)) == Times(k, Apply(m, v))
  {
    forall i | 0 <= i < 4
      ensures Component(Apply(m, Times(k, v)), i) == Component(Times(k, Apply(m, v)), i)
    {
      ApplyTimesAt(m, k, v, i);
    }
    Components(Apply(m, Times(k, v)), Times(k, Apply(m, v)));
  }

  /** Applying a product is applying its factors right to left. */
  lemma ApplyMul(a: Mat4, b: Mat4, v: Vec4)
    ensures Apply(Mul(a, b), v) == Apply(a, Apply(b, v))
  {
    var px, py, pz, pw := Times(v.x, b.c0), Times(v.y, b.c1), Times(v.z, b.c2), Times(v.w, b.c3);
    ApplyColumns(b, v);
    ApplyPlus(a, Plus(Plus(px, py), pz), pw);
    ApplyPlus(a, Plus(px, py), pz);
    ApplyPlus(a, px, py);
    ApplyTimes(a, v.x, b.c0);
    ApplyTimes(a, v.y, b.c1);
    ApplyTimes(a, v.z, b.c2);
    ApplyTimes(a, v.w, b.c3);
    ApplyColumns(Mul(a, b), v);
  }

  /** The product is associative, so a chain of right-multiplications is
      the product of all its factors in order. */
  lemma MulAssociative(a: Mat4, b: Mat4, c: Mat4)
    ensures Mul(Mul(a, b), c) == Mul(a, Mul(b, c))
  {
    ApplyMul(a, b, c.c0);
    ApplyMul(a, b, c.c1);
    ApplyMul(a, b, c.c2);
    ApplyMul(a, b, c.c3);
  }

  lemma ApplyIdentity(v: Vec4)
    ensures Apply(Identity(), v) == v
  {
  }

  /** m applied to the j-th unit vector is column j of m. */
  lemma ApplyUnit(m: Mat4)
    ensures Apply(m, Vec4(1.0, 0.0, 0.0, 0.0)) == m.c0
    ensures Apply(m, Vec4(0.0, 1.0, 0.0, 0.0)) == m.c1
    ensures Apply(m, Vec4(0.0, 0.0, 1.0, 0.0)) == m.c2
    ensures Apply(m, Vec4(0.0, 0.0, 0.0, 1.0)) == m.c3
  {
  }

  /** mat4.create is a two-sided unit of the product. */
  lemma MulIdentity(m: Mat4)
    ensures Mul(m, Identity()) == m
    ensures Mul(Identity(), m) == m
  {
    ApplyUnit(m);
    ApplyIdentity(m.c0);
    ApplyIdentity(m.c1);
    ApplyIdentity(m.c2);
    ApplyIdentity(m.c3);
  }
}

=== FILE: matrices.dfy ===
/** The matrix builders of src/components/Canvas/Renderer/matrices.js:
    projection constructors, the primitive transforms, and the helpers that
    right-multiply an accumulated matrix by one of them. */
module Matrices {
  import opened JsMath
  import opened Linear

  /* ---------------------------------------------------------------- */
  /* Constructors                                                     */
  /* ---------------------------------------------------------------- */

  /** A symmetric perspective frustum, f = tan(pi/2 - fieldOfView/2). */
  function Perspective(fieldOfView: real, aspect: real, near: real, far: real, trig: Trig): Mat4
    requires aspect != 0.0 && near != far
  {
    var f := trig.tan(Pi * 0.5 - 0.5 * fieldOfView);
    var rangeInv := 1.0 / (near - far);
    Set(f / aspect, 0.0, 0.0, 0.0,
        0.0, f, 0.0, 0.0,
        0.0, 0.0, (near + far) * rangeInv, -1.0,
        0.0, 0.0, near * far * rangeInv * 2.0, 0.0)
  }

  /** The perspective JavaScript computes when aspect is Infinity (a
      client of zero height): f / Infinity is 0, so the x scale vanishes
      and every other entry is the finite one of Perspective. */
  function PerspectiveUnboundedAspect(fieldOfView: real, near: real, far: real, trig: Trig): Mat4
    requires near != far
  {
    var f := trig.tan(Pi * 0.5 - 0.5 * fieldOfView);
    var rangeInv := 1.0 / (near - far);
    Set(0.0, 0.0, 0.0, 0.0,
        0.0, f, 0.0, 0.0,
        0.0, 0.0, (near + far) * rangeInv, -1.0,
        0.0, 0.0, near * far * rangeInv * 2.0, 0.0)
  }

  /** Pixel space (y pointing down) to clip space. */
  function Projection(width: real, height: real, depth: real): Mat4
    requires width != 0.0 && height != 0.0 && depth != 0.0
  {
    Set(2.0 / width, 0.0, 0.0, 0.0,
        0.0, -2.0 / height, 0.0, 0.0,
        0.0, 0.0, 2.0 / depth, 0.0,
        -1.0, 1.0, 0.0, 1.0)
  }

  /** The orthographic box exactly as written in the source (the name's
      spelling is the source's); see OrtographicCorrected for its y row. */
  function Ortographic(left: real, right: real, bottom: real, top: real, near: real, far: real): Mat4
    requires right != left && top != bottom && near != far
  {
    Set(2.0 / (right - left), 0.0, 0.0, 0.0,
        0.0, -2.0 / (top - bottom), 0.0, 0.0,
        0.0, 0.0, 2.0 / (near - far), 0.0,
        (left + right) / (left - right),
        (bottom + top) / (bottom - top),
        (near + far) / (near - far),
        1.0)
  }

  /** The orthographic box with the y scale sign that agrees with its y
      offset: the standard 2 / (top - bottom). */
  function OrtographicCorrected(left: real, right: real, bottom: real, top: real, near: real, far: real): Mat4
    requires right != left && top != bottom && near != far
  {
    Set(2.0 / (right - left), 0.0, 0.0, 0.0,
        0.0, 2.0 / (top - bottom), 0.0, 0.0,
        0.0, 0.0, 2.0 / (near - far), 0.0,
        (left + right) / (left - right),
        (bottom + top) / (bottom - top),
        (near + far) / (near - far),
        1.0)
  }

  function Translation(tx: real, ty: real, tz: real): Mat4 {
    Set(1.0, 0.0, 0.0, 0.0,
        0.0, 1.0, 0.0, 0.0,
        0.0, 0.0, 1.0, 0.0,
        tx, ty, tz, 1.0)
  }

  /** Rotation about x, from the cosine c and sine s of the angle. */
  function XRotationOf(c: real, s: real): Mat4 {
    Set(1.0, 0.0, 0.0, 0.0,
        0.0, c, s, 0.0,
        0.0, -s, c, 0.0,
        0.0, 0.0, 0.0, 1.0)
  }

  function YRotationOf(c: real, s: real): Mat4 {
    Set(c, 0.0, -s, 0.0,
        0.0, 1.0, 0.0, 0.0,
        s, 0.0, c, 0.0,
        0.0, 0.0, 0.0, 1.0)
  }

  function ZRotationOf(c: real, s: real): Mat4 {
    Set(c, s, 0.0, 0.0,
        -s, c, 0.0, 0.0,
        0.0, 0.0, 1.0, 0.0,
        0.0, 0.0, 0.0, 1.0)
  }

  function XRotation(angle: real, trig: Trig): Mat4 {
    XRotationOf(trig.cos(angle), trig.sin(angle))
  }

  function YRotation(angle: real, trig: Trig): Mat4 {
    YRotationOf(trig.cos(angle), trig.sin(angle))
  }

  function ZRotation(angle: real, trig: Trig): Mat4 {
    ZRotationOf(trig.cos(angle), trig.sin(angle))
  }

  function Scaling(sx: real, sy: real, sz: real): Mat4 {
    Set(sx, 0.0, 0.0, 0.0,
        0.0, sy, 0.0, 0.0,
        0.0, 0.0, sz, 0.0,
        0.0, 0.0, 0.0, 1.0)
  }

  /* ---------------------------------------------------------------- */
  /* Helpers: m := m × M                                              */
  /* ---------------------------------------------------------------- */

  function Translate(m: Mat4, tx: real, ty: real, tz: real): Mat4 {
    Mul(m, Translation(tx, ty, tz))
  }

  function XRotate(m: Mat4, angle: real, trig: Trig): Mat4 {
    Mul(m, XRotation(angle, trig))
  }

  function YRotate(m: Mat4, angle: real, trig: Trig): Mat4 {
    Mul(m, YRotation(angle, trig))
  }

  function ZRotate(m: Mat4, angle: real, trig: Trig): Mat4 {
    Mul(m, ZRotation(angle, trig))
  }

  function Scale(m: Mat4, sx: real, sy: real, sz: real): Mat4 {
    Mul(m, Scaling(sx, sy, sz))
  }

  /* ---------------------------------------------------------------- */
  /* What each constructor does to a point                            */
  /* ---------------------------------------------------------------- */

  /** A translation moves a point (w = 1) by the offset and leaves
      directions (w = 0) alone. */
  lemma TranslationMapsPoint(tx: real, ty: real, tz: real, v: Vec4)
    ensures Apply(Translation(tx, ty, tz), v) == Vec4(v.x + tx * v.w, v.y + ty * v.w, v.z + tz * v.w, v.w)
    ensures v.w == 1.0 ==> Apply(Translation(tx, ty, tz), v) == Vec4(v.x + tx, v.y + ty, v.z + tz, 1.0)
  {
    var r := Apply(Translation(tx, ty, tz), v);
    assert r.x == v.x + tx * v.w;
    assert r.y == v.y + ty * v.w;
    assert r.z == v.z + tz * v.w;
    assert r.w == v.w;
  }

  lemma ScalingMapsPoint(sx: real, sy: real, sz: real, v: Vec4)
    ensures Apply(Scaling(sx, sy, sz), v) == Vec4(sx * v.x, sy * v.y, sz * v.z, v.w)
  {
  }

  /** Each rotation fixes its own axis and w, and turns the other two
      coordinates by (c, s). */
  lemma XRotationFixesX(c: real, s: real, v: Vec4)
    ensures Apply(XRotationOf(c, s), v) == Vec4(v.x, c * v.y - s * v.z, s * v.y + c * v.z, v.w)
  {
  }

  lemma YRotationFixesY(c: real, s: real, v: Vec4)
    ensures Apply(YRotationOf(c, s), v) == Vec4(c * v.x + s * v.z, v.y, c * v.z - s * v.x, v.w)
  {
  }

  lemma ZRotationFixesZ(c: real, s: real, v: Vec4)
    ensures Apply(ZRotationOf(c, s), v) == Vec4(c * v.x - s * v.y, s * v.x + c * v.y, v.z, v.w)
  {
  }

  /** When cos² + sin² = 1 the rotation keeps lengths. */
  lemma XRotationKeepsLength(c: real, s: real, v: Vec4)
    requires c * c + s * s == 1.0
    ensures var r := Apply(XRotationOf(c, s), v);
      r.x * r.x + r.y * r.y + r.z * r.z == v.x * v.x + v.y * v.y + v.z * v.z
  {
    XRotationFixesX(c, s, v);
    calc {
      (c * v.y - s * v.z) * (c * v.y - s * v.z) + (s * v.y + c * v.z) * (s * v.y + c * v.z);
      (c * c + s * s) * (v.y * v.y) + (c * c + s * s) * (v.z * v.z);
      v.y * v.y + v.z * v.z;
    }
  }

  /** The clip w of a view-space point is -z, and its x and y are scaled
      by f / aspect and f. */
  lemma PerspectiveMapsPoint(fieldOfView: real, aspect: real, near: real, far: real, trig: Trig, v: Vec4)
    requires aspect != 0.0 && near != far
    ensures var f := trig.tan(Pi * 0.5 - 0.5 * fieldOfView);
      var r := Apply(Perspective(fieldOfView, aspect, near, far, trig), v);
      r.x == f / aspect * v.x && r.y == f * v.y && r.w == -v.z
  {
  }

  /** The x and y scales do not depend on the near and far planes. */
  lemma PerspectiveScaleIgnoresDepth(fieldOfView: real, aspect: real, near: real, far: real,
                                     near': real, far': real, trig: Trig)
    requires aspect != 0.0 && near != far && near' != far'
    ensures Perspective(fieldOfView, aspect, near, far, trig).c0 == Perspective(fieldOfView, aspect, near', far', trig).c0
    ensures Perspective(fieldOfView, aspect, near, far, trig).c1 == Perspective(fieldOfView, aspect, near', far', trig).c1
  {
  }

  /** With an unbounded aspect the perspective keeps the y, z and w
      columns of every finite one and sends every point to clip x = 0. */
  lemma UnboundedAspectFlattensX(fieldOfView: real, aspect: real, near: real, far: real, trig: Trig, v: Vec4)
    requires aspect != 0.0 && near != far
    ensures var p, q := PerspectiveUnboundedAspect(fieldOfView, near, far, trig), Perspective(fieldOfView, aspect, near, far, trig);
      p.c1 == q.c1 && p.c2 == q.c2 && p.c3 == q.c3 && Apply(p, v).x == 0.0
  {
  }

  /** On the axis, the near plane lands on NDC depth -1 and the far
      plane on +1. */
  lemma PerspectiveDepthRange(fieldOfView: real, aspect: real, near: real, far: real, trig: Trig)
    requires aspect != 0.0 && 0.0 < near < far
    ensures var p := Perspective(fieldOfView, aspect, near, far, trig);
      var n, f := Apply(p, Vec4(0.0, 0.0, -near, 1.0)), Apply(p, Vec4(0.0, 0.0, -far, 1.0));
      n.w == near && n.z / n.w == -1.0 && f.w == far && f.z / f.w == 1.0
  {
    var p := Perspective(fieldOfView, aspect, near, far, trig);
    var rangeInv := 1.0 / (near - far);
    var n, f := Apply(p, Vec4(0.0, 0.0, -near, 1.0)), Apply(p, Vec4(0.0, 0.0, -far, 1.0));
    assert n.z == (near + far) * rangeInv * -near + near * far * rangeInv * 2.0;
    assert n.z == near * (far - near) * rangeInv;
    assert (far - near) * rangeInv == -1.0;
    assert f.z == (near + far) * rangeInv * -far + near * far * rangeInv * 2.0;
    assert f.z == far * (near - far) * rangeInv;
    assert (near - far) * rangeInv == 1.0;
  }

  /** Pixel (0, 0) is the top-left corner of clip space and pixel
      (width, height) the bottom-right one. */
  lemma ProjectionCorners(width: real, height: real, depth: real)
    requires width != 0.0 && height != 0.0 && depth != 0.0
    ensures Apply(Projection(width, height, depth), Vec4(0.0, 0.0, 0.0, 1.0)) == Vec4(-1.0, 1.0, 0.0, 1.0)
    ensures Apply(Projection(width, height, depth), Vec4(width, height, 0.0, 1.0)) == Vec4(1.0, -1.0, 0.0, 1.0)
  {
    assert 2.0 / width * width == 2.0;
    assert -2.0 / height * height == -2.0;
  }

  /** The scale 2 / (hi - lo) with the offset (lo + hi) / (lo - hi) sends
      lo to -1 and hi to +1: the x row of the orthographic box, and the y
      row once its sign is corrected. */
  lemma UnitInterval(lo: real, hi: real)
    requires lo != hi
    ensures 2.0 / (hi - lo) * lo + (lo + hi) / (lo - hi) == -1.0
    ensures 2.0 / (hi - lo) * hi + (lo + hi) / (lo - hi) == 1.0
  {
    var inv := 1.0 / (hi - lo);
    assert (hi - lo) * inv == 1.0;
    assert 2.0 / (hi - lo) == 2.0 * inv;
    assert (lo + hi) / (lo - hi) == -(lo + hi) * inv;
    assert 2.0 * inv * lo - (lo + hi) * inv == -((hi - lo) * inv);
    assert 2.0 * inv * hi - (lo + hi) * inv == (hi - lo) * inv;
  }

  /** The z row of the orthographic box sends z = -near to -1 and z = -far to +1. */
  lemma UnitDepth(near: real, far: real)
    requires near != far
    ensures 2.0 / (near - far) * -near + (near + far) / (near - far) == -1.0
    ensures 2.0 / (near - far) * -far + (near + far) / (near - far) == 1.0
  {
    var inv := 1.0 / (near - far);
    assert (near - far) * inv == 1.0;
    assert 2.0 / (near - far) == 2.0 * inv;
    assert (near + far) / (near - far) == (near + far) * inv;
    assert 2.0 * inv * -near + (near + far) * inv == -((near - far) * inv);
    assert 2.0 * inv * -far + (near + far) * inv == (near - far) * inv;
  }

  /** x = left and x = right land on -1 and +1; z = -near and z = -far
      land on -1 and +1. */
  lemma OrtographicXZRange(left: real, right: real, bottom: real, top: real, near: real, far: real, y: real)
    requires right != left && top != bottom && near != far
    ensures var m := Ortographic(left, right, bottom, top, near, far);
      Apply(m, Vec4(left, y, 0.0, 1.0)).x == -1.0 && Apply(m, Vec4(right, y, 0.0, 1.0)).x == 1.0
      && Apply(m, Vec4(0.0, y, -near, 1.0)).z == -1.0 && Apply(m, Vec4(0.0, y, -far, 1.0)).z == 1.0
  {
    var m := Ortographic(left, right, bottom, top, near, far);
    UnitInterval(left, right);
    UnitDepth(near, far);
    assert Apply(m, Vec4(left, y, 0.0, 1.0)).x == 2.0 / (right - left) * left + (left + right) / (left - right);
    assert Apply(m, Vec4(right, y, 0.0, 1.0)).x == 2.0 / (right - left) * right + (left + right) / (left - right);
    assert Apply(m, Vec4(0.0, y, -near, 1.0)).z == 2.0 / (near - far) * -near + (near + far) / (near - far);
    assert Apply(m, Vec4(0.0, y, -far, 1.0)).z == 2.0 / (near - far) * -far + (near + far) / (near - far);
  }

  /** As written, the y row sends y = bottom to -(3·bottom + top) / (top - bottom)
      and y = top to -(bottom + 3·top) / (top - bottom). The two land on -1
      and +1 only when bottom + top = 0, and then with the signs swapped:
      bottom goes to +1 and top to -1. For example bottom = 0, top = 2
      sends y = top to -3. */
  lemma OrtographicYAsWritten(left: real, right: real, near: real, far: real)
    requires right != left && near != far
    ensures var m := Ortographic(left, right, 0.0, 2.0, near, far);
      Apply(m, Vec4(0.0, 2.0, 0.0, 1.0)).y == -3.0
  {
  }

  /** The corrected y row sends y = bottom to -1 and y = top to +1. */
  lemma OrtographicCorrectedYRange(left: real, right: real, bottom: real, top: real, near: real, far: real)
    requires right != left && top != bottom && near != far
    ensures var m := OrtographicCorrected(left, right, bottom, top, near, far);
      Apply(m, Vec4(0.0, bottom, 0.0, 1.0)).y == -1.0 && Apply(m, Vec4(0.0, top, 0.0, 1.0)).y == 1.0
  {
    var m := OrtographicCorrected(left, right, bottom, top, near, far);
    UnitInterval(bottom, top);
    assert Apply(m, Vec4(0.0, bottom, 0.0, 1.0)).y == 2.0 / (top - bottom) * bottom + (bottom + top) / (bottom - top);
    assert Apply(m, Vec4(0.0, top, 0.0, 1.0)).y == 2.0 / (top - bottom) * top + (bottom + top) / (bottom - top);
  }

  /* ---------------------------------------------------------------- */
  /* The right-multiplying helpers                                    */
  /* ---------------------------------------------------------------- */

  /** translate keeps the first three columns and replaces the origin
      column by m's image of the offset point. */
  lemma TranslateColumns(m: Mat4, tx: real, ty: real, tz: real)
    ensures var r := Translate(m, tx, ty, tz);
      r.c0 == m.c0 && r.c1 == m.c1 && r.c2 == m.c2 && r.c3 == Apply(m, Vec4(tx, ty, tz, 1.0))
  {
    ApplyUnit(m);
  }

  /** scale multiplies each of the first three columns by its factor. */
  lemma ScaleColumns(m: Mat4, sx: real, sy: real, sz: real)
    ensures var r := Scale(m, sx, sy, sz);
      r.c0 == Times(sx, m.c0) && r.c1 == Times(sy, m.c1) && r.c2 == Times(sz, m.c2) && r.c3 == m.c3
  {
  }

  /** xRotate turns columns 1 and 2 of m into each other and keeps 0 and 3. */
  lemma XRotateColumns(m: Mat4, angle: real, trig: Trig)
    ensures var r := XRotate(m, angle, trig);
      var c, s := trig.cos(angle), trig.sin(angle);
      r.c0 == m.c0 && r.c3 == m.c3
      && r.c1 == Plus(Times(c, m.c1), Times(s, m.c2)) && r.c2 == Plus(Times(-s, m.c1), Times(c, m.c2))
  {
  }

  lemma YRotateColumns(m: Mat4, angle: real, trig: Trig)
    ensures var r := YRotate(m, angle, trig);
      var c, s := trig.cos(angle), trig.sin(angle);
      r.c1 == m.c1 && r.c3 == m.c3
      && r.c0 == Plus(Times(c, m.c0), Times(-s, m.c2)) && r.c2 == Plus(Times(s, m.c0), Times(c, m.c2))
  {
  }

  lemma ZRotateColumns(m: Mat4, angle: real, trig: Trig)
    ensures var r := ZRotate(m, angle, trig);
      var c, s := trig.cos(angle), trig.sin(angle);
      r.c2 == m.c2 && r.c3 == m.c3
      && r.c0 == Plus(Times(c, m.c0), Times(s, m.c1)) && r.c1 == Plus(Times(-s, m.c0), Times(c, m.c1))
  {
  }

  /** A helper's result applied to v is m applied to the primitive's image
      of v: the primitive acts first. */
  lemma TranslateActsFirst(m: Mat4, tx: real, ty: real, tz: real, v: Vec4)
    requires v.w == 1.0
    ensures Apply(Translate(m, tx, ty, tz), v) == Apply(m, Vec4(v.x + tx, v.y + ty, v.z + tz, 1.0))
  {
    ApplyMul(m, Translation(tx, ty, tz), v);
    TranslationMapsPoint(tx, ty, tz, v);
  }

  lemma TranslateByZero(m: Mat4)
    ensures Translate(m, 0.0, 0.0, 0.0) == m
  {
    assert Translation(0.0, 0.0, 0.0) == Identity();
    MulIdentity(m);
  }

  lemma ScaleByOne(m: Mat4)
    ensures Scale(m, 1.0, 1.0, 1.0) == m
  {
    ScaleColumns(m, 1.0, 1.0, 1.0);
  }

  /** Two translates are one translate by the summed offsets. */
  lemma TranslateTwice(m: Mat4, ax: real, ay: real, az: real, bx: real, by': real, bz: real)
    ensures Translate(Translate(m, ax, ay, az), bx, by', bz) == Translate(m, ax + bx, ay + by', az + bz)
  {
    var t := Translate(m, ax, ay, az);
    TranslateColumns(m, ax, ay, az);
    TranslateColumns(t, bx, by', bz);
    TranslateColumns(m, ax + bx, ay + by', az + bz);
    TranslateActsFirst(m, ax, ay, az, Vec4(bx, by', bz, 1.0));
  }

  /** A chain of helpers is the accumulator times the primitives in call
      order. */
  lemma HelpersCompose(m: Mat4, tx: real, ty: real, tz: real, angle: real, trig: Trig)
    ensures XRotate(Translate(m, tx, ty, tz), angle, trig) == Mul(m, Mul(Translation(tx, ty, tz), XRotation(angle, trig)))
  {
    MulAssociative(m, Translation(tx, ty, tz), XRotation(angle, trig));
  }

  /** A rotation about x fixes the origin. */
  lemma XRotationFixesOrigin(c: real, s: real)
    ensures Apply(XRotationOf(c, s), Vec4(0.0, 0.0, 0.0, 1.0)) == Vec4(0.0, 0.0, 0.0, 1.0)
  {
  }

  /** The call order matters. Translating and then rotating about x
      places the origin at the translation offset seen through m; rotating
      first turns the offset as well. */
  lemma TranslateThenXRotate(m: Mat4, tx: real, ty: real, tz: real, c: real, s: real)
    ensures Apply(Mul(Mul(m, Translation(tx, ty, tz)), XRotationOf(c, s)), Vec4(0.0, 0.0, 0.0, 1.0))
         == Apply(m, Vec4(tx, ty, tz, 1.0))
  {
    var o := Vec4(0.0, 0.0, 0.0, 1.0);
    calc {
      Apply(Mul(Mul(m, Translation(tx, ty, tz)), XRotationOf(c, s)), o);
      == { ApplyMul(Mul(m, Translation(tx, ty, tz)), XRotationOf(c, s), o); }
      Apply(Mul(m, Translation(tx, ty, tz)), Apply(XRotationOf(c, s), o));
      == { XRotationFixesOrigin(c, s); }
      Apply(Mul(m, Translation(tx, ty, tz)), o);
      == { ApplyMul(m, Translation(tx, ty, tz), o); }
      Apply(m, Apply(Translation(tx, ty, tz), o));
      == { TranslationMapsPoint(tx, ty, tz, o); }
      Apply(m, Vec4(tx, ty, tz, 1.0));
    }
  }

  lemma XRotateThenTranslate(m: Mat4, tx: real, ty: real, tz: real, c: real, s: real)
    ensures Apply(Mul(Mul(m, XRotationOf(c, s)), Translation(tx, ty, tz)), Vec4(0.0, 0.0, 0.0, 1.0))
         == Apply(m, Vec4(tx, c * ty - s * tz, s * ty + c * tz, 1.0))
  {
    var o, t := Vec4(0.0, 0.0, 0.0, 1.0), Vec4(tx, ty, tz, 1.0);
    calc {
      Apply(Mul(Mul(m, XRotationOf(c, s)), Translation(tx, ty, tz)), o);
      == { ApplyMul(Mul(m, XRotationOf(c, s)), Translation(tx, ty, tz), o); }
      Apply(Mul(m, XRotationOf(c, s)), Apply(Translation(tx, ty, tz), o));
      == { TranslationMapsPoint(tx, ty, tz, o); }
      Apply(Mul(m, XRotationOf(c, s)), t);
      == { ApplyMul(m, XRotationOf(c, s), t); }
      Apply(m, Apply(XRotationOf(c, s), t));
      == { XRotationFixesX(c, s, t); }
      Apply(m, Vec4(tx, c * ty - s * tz, s * ty + c * tz, 1.0));
    }
  }

  /** The two orders differ for every m that tells (0, d, 0) from (0, 0, d):
      a quarter turn about x (c = 0, s = 1) with a step d along y. */
  lemma HelpersDoNotCommute(m: Mat4, d: real)
    requires Apply(m, Vec4(0.0, d, 0.0, 1.0)) != Apply(m, Vec4(0.0, 0.0, d, 1.0))
    ensures Mul(Mul(m, Translation(0.0, d, 0.0)), XRotationOf(0.0, 1.0))
         != Mul(Mul(m, XRotationOf(0.0, 1.0)), Translation(0.0, d, 0.0))
  {
    TranslateThenXRotate(m, 0.0, d, 0.0, 0.0, 1.0);
    XRotateThenTranslate(m, 0.0, d, 0.0, 0.0, 1.0);
    assert Vec4(0.0, 0.0 * d - 1.0 * 0.0, 1.0 * d + 0.0 * 0.0, 1.0) == Vec4(0.0, 0.0, d, 1.0);
  }

  /** Starting from mat4.create(), translating by any nonzero d along y
      and turning a quarter turn about x give different matrices in the
      two orders. */
  lemma HelpersDoNotCommuteFromIdentity(d: real)
    requires d != 0.0
    ensures Mul(Mul(Identity(), Translation(0.0, d, 0.0)), XRotationOf(0.0, 1.0))
         != Mul(Mul(Identity(), XRotationOf(0.0, 1.0)), Translation(0.0, d, 0.0))
  {
    var p, q := Vec4(0.0, d, 0.0, 1.0), Vec4(0.0, 0.0, d, 1.0);
    ApplyIdentity(p);
    ApplyIdentity(q);
    HelpersDoNotCommute(Identity(), d);
  }
}

=== FILE: renderer.dfy ===
/** The state logic of src/components/Canvas/Renderer/Renderer.js: the
    scene record, resizeCanvas, update, the matrices draw composes and the
    draw calls it issues, and the frame clock of startRendering. WebGL
    calls are not modelled; a frame is described by the viewport it sets
    and the draw calls it makes. */
module Render {
  import opened Wrappers
  import opened JsMath
  import opened Linear
  import opened Matrices
  import opened Tables

  datatype Vec3 = Vec3(x: real, y: real, z: real)

  /** A width and height in pixels: the drawing-buffer size of the canvas
      element, or its CSS client size. */
  datatype Size = Size(width: nat, height: nat)

  /** The fields of a Renderer that the frame logic reads or writes, and
      the canvas's drawing-buffer size. */
  datatype Renderer = Renderer(
    translation: Vec3,
    rotation: Vec3,
    scale: Vec3,
    color: Vec4,
    fieldOfView: real,
    cameraAngle: real,
    numFs: int,
    radius: real,
    canvas: Size)

  /** What draw computes outside this model: the gl-matrix calls
      (mat4.rotateX(out, a, angle) returns out, and mat4.invert returns None
      where it leaves out unwritten, a singular matrix), and the perspective
      matrix JavaScript builds from a client of zero width. Its aspect is 0
      (or NaN when the height is zero too), so its x scale f / aspect is an
      infinity or NaN rather than a real number. */
  datatype Foreign = Foreign(
    trig: Trig,
    rotateX: (Mat4, real) -> Mat4,
    invert: Mat4 -> Option<Mat4>,
    degenerate: (real, Size) -> Mat4)

  /** The field initialisers; the three colour components come from
      Math.random, and the canvas starts at the 800 x 600 of its element. */
  function Initial(red: real, green: real, blue: real): Renderer {
    Renderer(
      Vec3(-100.0, 0.0, -360.0),
      Vec3(0.0 * Pi, 0.0 * Pi, 0.0 * Pi),
      Vec3(1.0, 1.0, 1.0),
      Vec4(red, green, blue, 4.0),
      60.0 * Pi / 180.0,
      0.1 * Pi,
      10,
      500.0,
      Size(800, 600))
  }

  /* ---------------------------------------------------------------- */
  /* resizeCanvas                                                     */
  /* ---------------------------------------------------------------- */

  datatype Resize = Resize(resized: bool, canvas: Size)

  /** Copies the client size into the drawing-buffer size, reporting
      whether either dimension differed. */
  function ResizeCanvas(canvas: Size, client: Size): (r: Resize)
    ensures r.resized <==> (canvas.width != client.width || canvas.height != client.height)
    ensures r.canvas == client
  {
    if canvas.width != client.width || canvas.height != client.height then
      Resize(true, client)
    else
      Resize(false, canvas)
  }

  /** A second resize to the same client size reports false and changes nothing. */
  lemma ResizeIdempotent(canvas: Size, client: Size)
    ensures var once := ResizeCanvas(canvas, client);
      ResizeCanvas(once.canvas, client) == Resize(false, once.canvas)
  {
  }

  /* ---------------------------------------------------------------- */
  /* update                                                           */
  /* ---------------------------------------------------------------- */

  /** Turns the scene about x and y in proportion to the elapsed time. */
  function Update(s: Renderer, deltaTime: real): (r: Renderer)
    ensures r.rotation.x - s.rotation.x == deltaTime * 0.001
    ensures r.rotation.y - s.rotation.y == deltaTime * 0.0007
    ensures r.(rotation := s.rotation) == s && r.rotation.z == s.rotation.z
  {
    s.(rotation := s.rotation.(x := s.rotation.x + deltaTime * 0.001,
                               y := s.rotation.y + deltaTime * 0.0007))
  }

  /** Updates compose by adding their times, and a zero update is no change. */
  lemma UpdateAdditive(s: Renderer, a: real, b: real)
    ensures Update(Update(s, a), b) == Update(s, a + b)
    ensures Update(s, 0.0) == s
  {
  }

  /* ---------------------------------------------------------------- */
  /* draw: the matrices                                               */
  /* ---------------------------------------------------------------- */

  const Near: real := 1.0
  const Far: real := 3000.0

  /** A client size whose aspect ratio is a nonzero real number. */
  predicate Drawable(client: Size) {
    client.width > 0 && client.height > 0
  }

  function Aspect(client: Size): real
    requires Drawable(client)
  {
    client.width as real / client.height as real
  }

  /** The perspective of the field of view, the client aspect and the
      near and far planes. A client of zero height has aspect Infinity and
      so an x scale of 0; for a client of zero width it is the foreign
      degenerate matrix. */
  function ProjectionOf(s: Renderer, client: Size, lib: Foreign): Mat4 {
    if Drawable(client) then Perspective(s.fieldOfView, Aspect(client), Near, Far, lib.trig)
    else if client.width > 0 then PerspectiveUnboundedAspect(s.fieldOfView, Near, Far, lib.trig)
    else lib.degenerate(s.fieldOfView, client)
  }

  /** A client of zero height but some width squashes the picture onto
      clip x = 0, with the near and far planes where they always are. */
  lemma FlatClientProjection(s: Renderer, client: Size, lib: Foreign, v: Vec4)
    requires client.width > 0 && client.height == 0
    ensures var r := Apply(ProjectionOf(s, client, lib), v);
      r.x == 0.0 && r.w == -v.z
      && ProjectionOf(s, client, lib).c2 == ProjectionOf(s, Size(client.width, 1), lib).c2
      && ProjectionOf(s, client, lib).c3 == ProjectionOf(s, Size(client.width, 1), lib).c3
  {
    UnboundedAspectFlattensX(s.fieldOfView, client.width as real, Near, Far, lib.trig, v);
  }

  /** The camera before mat4.rotateX tilts it: turned by cameraAngle about
      y, then moved up by radius and back by twice the radius. */
  function CameraBeforeTilt(s: Renderer, trig: Trig): Mat4 {
    Translate(YRotation(s.cameraAngle, trig), 0.0, s.radius * 1.0, s.radius * 2.0)
  }

  function Camera(s: Renderer, lib: Foreign): Mat4 {
    var c := CameraBeforeTilt(s, lib.trig);
    lib.rotateX(c, -0.4)
  }

  /** mat4.create() written over by mat4.invert when the camera is invertible. */
  function View(s: Renderer, lib: Foreign): Mat4 {
    lib.invert(Camera(s, lib)).GetOr(Identity())
  }

  function ViewProjection(s: Renderer, client: Size, lib: Foreign): Mat4 {
    Mul(ProjectionOf(s, client, lib), View(s, lib))
  }

  /** The untilted camera is the y rotation times the translation, in that order. */
  lemma CameraComposition(s: Renderer, trig: Trig)
    ensures CameraBeforeTilt(s, trig) == Mul(YRotation(s.cameraAngle, trig), Translation(0.0, s.radius, 2.0 * s.radius))
  {
  }

  /** The untilted camera sits on a circle of radius 2r about the y axis,
      at height r, at the angle cameraAngle. */
  lemma CameraOrbit(s: Renderer, trig: Trig)
    ensures var c, sn := trig.cos(s.cameraAngle), trig.sin(s.cameraAngle);
      Apply(CameraBeforeTilt(s, trig), Vec4(0.0, 0.0, 0.0, 1.0))
        == Vec4(sn * (2.0 * s.radius), s.radius, c * (2.0 * s.radius), 1.0)
  {
    var c, sn := trig.cos(s.cameraAngle), trig.sin(s.cameraAngle);
    var t := Translation(0.0, s.radius * 1.0, s.radius * 2.0);
    var p := Vec4(0.0, s.radius, 2.0 * s.radius, 1.0);
    ApplyMul(YRotationOf(c, sn), t, Vec4(0.0, 0.0, 0.0, 1.0));
    TranslationMapsPoint(0.0, s.radius * 1.0, s.radius * 2.0, Vec4(0.0, 0.0, 0.0, 1.0));
    assert Apply(t, Vec4(0.0, 0.0, 0.0, 1.0)) == p;
    YRotationFixesY(c, sn, p);
  }

  /** With the initial fields the camera starts 1000 units out at height
      500, a tenth of a half-turn round. */
  lemma InitialCamera(red: real, green: real, blue: real, trig: Trig)
    ensures var s := Initial(red, green, blue);
      Apply(CameraBeforeTilt(s, trig), Vec4(0.0, 0.0, 0.0, 1.0))
        == Vec4(trig.sin(0.1 * Pi) * 1000.0, 500.0, trig.cos(0.1 * Pi) * 1000.0, 1.0)
  {
    CameraOrbit(Initial(red, green, blue), trig);
  }

  /** With the initial field of view of 60 degrees, the perspective of a
      client of nonzero width has focal length tan(π/3). */
  lemma InitialFocalLength(red: real, green: real, blue: real, client: Size, lib: Foreign)
    requires client.width > 0
    ensures ProjectionOf(Initial(red, green, blue), client, lib).c1.y == lib.trig.tan(Pi / 3.0)
  {
    assert Pi * 0.5 - 0.5 * Initial(red, green, blue).fieldOfView == Pi / 3.0;
  }

  /** When mat4.invert finds a true left inverse of the camera, the
      view-projection undoes the camera: composed with it, only the
      projection remains. */
  lemma ViewUndoesCamera(s: Renderer, client: Size, lib: Foreign)
    requires var inv := lib.invert(Camera(s, lib));
      inv.Some? && Mul(inv.value, Camera(s, lib)) == Identity()
    ensures Mul(ViewProjection(s, client, lib), Camera(s, lib)) == ProjectionOf(s, client, lib)
  {
    var p, v, c := ProjectionOf(s, client, lib), View(s, lib), Camera(s, lib);
    MulAssociative(p, v, c);
    MulIdentity(p);
  }

  /** When mat4.invert refuses a singular camera the view stays the
      identity and the view-projection is the projection alone. */
  lemma SingularCameraKeepsProjection(s: Renderer, client: Size, lib: Foreign)
    requires lib.invert(Camera(s, lib)).None?
    ensures ViewProjection(s, client, lib) == ProjectionOf(s, client, lib)
  {
    MulIdentity(ProjectionOf(s, client, lib));
  }

  /* ---------------------------------------------------------------- */
  /* draw: the frame                                                  */
  /* ---------------------------------------------------------------- */

  datatype Primitive = Triangles

  /** The two vertex sets draw uploads before each drawArrays. */
  datatype Mesh = BusMesh | FloorMesh

  /** One drawArrays call, with the u_matrix uniform it was given. */
  datatype DrawCall = DrawCall(mesh: Mesh, primitive: Primitive, offset: nat, count: nat, matrix: Mat4)

  /** What a frame puts on screen, and the renderer state it leaves. */
  datatype Picture = Picture(viewport: Size, calls: seq<DrawCall>, state: Renderer)

  /** The colour table uploaded for a mesh. */
  function ColorTable(mesh: Mesh): seq<byte> {
    match mesh
    case BusMesh => BusColors()
    case FloorMesh => FloorColors()
  }

  /** The per-object matrix: a clone of the view-projection, translated by
      nothing. */
  function ObjectMatrix(vp: Mat4): (r: Mat4)
    ensures r == vp
  {
    TranslateByZero(vp);
    Translate(vp, 0.0, 0.0, 0.0)
  }

  /** draw: resize, set the viewport to the new drawing-buffer size, then
      draw the bus and the floor, each with the view-projection matrix and
      as many vertices as its tables hold. The deltaTime argument is not read. */
  function Draw(s: Renderer, client: Size, deltaTime: real, lib: Foreign): (r: Picture)
    ensures r.viewport == client
    ensures r.state.canvas == client && r.state.(canvas := s.canvas) == s
    ensures |r.calls| == 2
    ensures var vp := ViewProjection(s, client, lib);
      r.calls == [DrawCall(BusMesh, Triangles, 0, r.calls[0].count, vp),
                  DrawCall(FloorMesh, Triangles, 0, r.calls[1].count, vp)]
    ensures forall k :: 0 <= k < |r.calls| ==>
      r.calls[k].count * ComponentsPerVertex == |ColorTable(r.calls[k].mesh)|
    ensures r.calls[1].count * ComponentsPerVertex == |FloorGeometry()|
  {
    var resized := ResizeCanvas(s.canvas, client);
    var state := s.(canvas := resized.canvas);
    var vp := ViewProjection(s, client, lib);
    BusColorsContents();
    FloorContents();
    Picture(resized.canvas,
            [DrawCall(BusMesh, Triangles, 0, 6 * 5, ObjectMatrix(vp)),
             DrawCall(FloorMesh, Triangles, 0, 3 * 2, ObjectMatrix(vp))],
            state)
  }

  /** What draw puts on screen does not depend on the rotation update
      changes, and draw's resize and update touch disjoint fields, so
      drawing then updating leaves the same state as the other order. */
  lemma DrawUpdateCommute(s: Renderer, client: Size, deltaTime: real, lib: Foreign)
    ensures var before, after := Draw(s, client, deltaTime, lib), Draw(Update(s, deltaTime), client, deltaTime, lib);
      before.viewport == after.viewport && before.calls == after.calls
      && Update(before.state, deltaTime) == after.state
  {
  }

  /* ---------------------------------------------------------------- */
  /* The frame clock of startRendering                                */
  /* ---------------------------------------------------------------- */

  /** The time between frames: each timestamp less the one before it,
      the first less the starting value. */
  function Deltas(prior: real, stamps: seq<real>): (ds: seq<real>)
    ensures |ds| == |stamps|
    ensures forall i :: 0 <= i < |ds| ==> ds[i] == stamps[i] - (if i == 0 then prior else stamps[i - 1])
    decreases |stamps|
  {
    if stamps == [] then []
    else [stamps[0] - prior] + Deltas(stamps[0], stamps[1..])
  }

  function Sum(xs: seq<real>): real
    decreases |xs|
  {
    if xs == [] then 0.0 else xs[0] + Sum(xs[1..])
  }

  function Last(prior: real, stamps: seq<real>): real {
    if stamps == [] then prior else stamps[|stamps| - 1]
  }

  predicate NonDecreasing(xs: seq<real>) {
    forall i :: 0 < i < |xs| ==> xs[i - 1] <= xs[i]
  }

  /** Starting from then = 0, the first delta is the first timestamp. */
  lemma FirstDelta(stamps: seq<real>)
    requires |stamps| > 0
    ensures Deltas(0.0, stamps)[0] == stamps[0]
  {
  }

  /** The deltas telescope: together they span from the start to the last timestamp. */
  lemma {:induction false} DeltasSum(prior: real, stamps: seq<real>)
    ensures Sum(Deltas(prior, stamps)) == Last(prior, stamps) - prior
    decreases |stamps|
  {
    if stamps != [] {
      DeltasSum(stamps[0], stamps[1..]);
      assert Last(stamps[0], stamps[1..]) == Last(prior, stamps);
    }
  }

  predicate NoNegative(ds: seq<real>) {
    forall i :: 0 <= i < |ds| ==> ds[i] >= 0.0
  }

  /** Timestamps that never fall, from the starting value on, give no negative delta. */
  lemma NonNegativeFromOrdered(prior: real, stamps: seq<real>)
    requires NonDecreasing([prior] + stamps)
    ensures NoNegative(Deltas(prior, stamps))
  {
    var ds, xs := Deltas(prior, stamps), [prior] + stamps;
    forall i | 0 <= i < |ds|
      ensures ds[i] >= 0.0
    {
      assert xs[i + 1] == stamps[i];
      assert xs[i] == if i == 0 then prior else stamps[i - 1];
      assert xs[i] <= xs[i + 1];
    }
  }

  /** No negative delta means the timestamps, from the starting value on, never fall. */
  lemma OrderedFromNonNegative(prior: real, stamps: seq<real>)
    requires NoNegative(Deltas(prior, stamps))
    ensures NonDecreasing([prior] + stamps)
  {
    var ds, xs := Deltas(prior, stamps), [prior] + stamps;
    forall i | 0 < i < |xs|
      ensures xs[i - 1] <= xs[i]
    {
      assert xs[i] == stamps[i - 1];
      assert xs[i - 1] == if i == 1 then prior else stamps[i - 2];
      assert ds[i - 1] >= 0.0;
    }
  }

  /** No delta is negative exactly when the timestamps, preceded by the
      starting value, never decrease. */
  lemma DeltasNonNegative(prior: real, stamps: seq<real>)
    ensures NoNegative(Deltas(prior, stamps)) <==> NonDecreasing([prior] + stamps)
  {
    if NoNegative(Deltas(prior, stamps)) {
      OrderedFromNonNegative(prior, stamps);
    }
    if NonDecreasing([prior] + stamps) {
      NonNegativeFromOrdered(prior, stamps);
    }
  }

  /** The render closure's captured state: the last timestamp and the scene. */
  datatype Loop = Loop(prior: real, scene: Renderer)

  /** startRendering: then starts at 0. */
  function Start(scene: Renderer): Loop {
    Loop(0.0, scene)
  }

  /** A requestAnimationFrame callback's inputs: its timestamp and the
      canvas's client size at that moment. */
  datatype Tick = Tick(now: real, client: Size)

  datatype Frame = Frame(deltaTime: real, picture: Picture, next: Loop)

  /** render(now): the delta since the last frame, draw with the scene as
      it was, then update with the same delta. */
  function Render(l: Loop, t: Tick, lib: Foreign): (r: Frame)
    ensures r.deltaTime == t.now - l.prior && r.next.prior == t.now
    ensures r.picture == Draw(l.scene, t.client, r.deltaTime, lib)
    ensures r.next.scene == Update(r.picture.state, r.deltaTime)
    ensures r.next.scene.canvas == t.client
  {
    var deltaTime := t.now - l.prior;
    var picture := Draw(l.scene, t.client, deltaTime, lib);
    Frame(deltaTime, picture, Loop(t.now, Update(picture.state, deltaTime)))
  }

  function Stamps(ticks: seq<Tick>): (r: seq<real>)
    ensures |r| == |ticks| && forall k :: 0 <= k < |ticks| ==> r[k] == ticks[k].now
    decreases |ticks|
  {
    if ticks == [] then [] else [ticks[0].now] + Stamps(ticks[1..])
  }

  /** The bookkeeping of one callback on its own: then moves to the
      timestamp, and the scene takes the client size and is turned by the
      delta. */
  function Tock(l: Loop, t: Tick): Loop {
    Loop(t.now, Update(l.scene, t.now - l.prior).(canvas := t.client))
  }

  /** The loop a frame leaves is the bookkeeping's: draw changes nothing
      but the canvas size, and nothing else changes. */
  lemma RenderNext(l: Loop, t: Tick, lib: Foreign)
    ensures Render(l, t, lib).next == Tock(l, t)
  {
  }

  /** The frames of a sequence of callbacks, in order. */
  function Run(l: Loop, ticks: seq<Tick>, lib: Foreign): (frames: seq<Frame>)
    ensures |frames| == |ticks|
    decreases |ticks|
  {
    if ticks == [] then []
    else
      var f := Render(l, ticks[0], lib);
      [f] + Run(f.next, ticks[1..], lib)
  }

  /** The loop after the given frames, or the initial one if none. */
  function After(l: Loop, frames: seq<Frame>): Loop {
    if frames == [] then l else frames[|frames| - 1].next
  }

  /** Each frame is render applied to the loop the previous frame left,
      so (by Render's contract) it draws with that frame's updated scene. */
  lemma {:induction false} RunChains(l: Loop, ticks: seq<Tick>, lib: Foreign)
    ensures var frames := Run(l, ticks, lib);
      && (|frames| > 0 ==> frames[0] == Render(l, ticks[0], lib))
      && (forall k :: 0 < k < |frames| ==> frames[k] == Render(frames[k - 1].next, ticks[k], lib))
    decreases |ticks|
  {
    if ticks != [] {
      var f := Render(l, ticks[0], lib);
      var rest := Run(f.next, ticks[1..], lib);
      RunChains(f.next, ticks[1..], lib);
      var frames := Run(l, ticks, lib);
      assert frames == [f] + rest;
      forall k | 0 < k < |frames|
        ensures frames[k] == Render(frames[k - 1].next, ticks[k], lib)
      {
        assert ticks[k] == ticks[1..][k - 1];
        if k > 1 {
          assert frames[k] == rest[k - 1] && frames[k - 1] == rest[k - 2];
        }
      }
    }
  }

  /** The deltaTime each frame was given, in order. */
  function FrameDeltas(frames: seq<Frame>): (ds: seq<real>)
    ensures |ds| == |frames| && forall k :: 0 <= k < |frames| ==> ds[k] == frames[k].deltaTime
    decreases |frames|
  {
    if frames == [] then [] else [frames[0].deltaTime] + FrameDeltas(frames[1..])
  }

  /** A run is its first frame followed by the run from the loop that frame leaves. */
  lemma RunFirst(l: Loop, ticks: seq<Tick>, lib: Foreign)
    requires ticks != []
    ensures var f := Render(l, ticks[0], lib);
      Run(l, ticks, lib) == [f] + Run(f.next, ticks[1..], lib)
  {
  }

  /** The deltas of a first frame followed by others. */
  lemma FrameDeltasFirst(f: Frame, rest: seq<Frame>)
    ensures FrameDeltas([f] + rest) == [f.deltaTime] + FrameDeltas(rest)
  {
    assert ([f] + rest)[1..] == rest;
  }

  /** The clock's deltas of timestamps read from ticks, one tick at a time. */
  lemma DeltasFirst(prior: real, ticks: seq<Tick>)
    requires ticks != []
    ensures Deltas(prior, Stamps(ticks)) == [ticks[0].now - prior] + Deltas(ticks[0].now, Stamps(ticks[1..]))
  {
    var stamps := Stamps(ticks);
    assert stamps[0] == ticks[0].now && stamps[1..] == Stamps(ticks[1..]);
  }

  /** The first frame's delta, then those of the run from the loop it leaves. */
  lemma RunDeltasFirst(l: Loop, ticks: seq<Tick>, lib: Foreign)
    requires ticks != []
    ensures FrameDeltas(Run(l, ticks, lib))
         == [ticks[0].now - l.prior] + FrameDeltas(Run(Tock(l, ticks[0]), ticks[1..], lib))
  {
    var f := Render(l, ticks[0], lib);
    RunFirst(l, ticks, lib);
    RenderNext(l, ticks[0], lib);
    FrameDeltasFirst(f, Run(f.next, ticks[1..], lib));
  }

  /** The deltas the frames see are those of the clock. */
  lemma {:induction false} RunDeltas(l: Loop, ticks: seq<Tick>, lib: Foreign)
    ensures FrameDeltas(Run(l, ticks, lib)) == Deltas(l.prior, Stamps(ticks))
    decreases |ticks|
  {
    if ticks != [] {
      var next := Tock(l, ticks[0]);
      assert next.prior == ticks[0].now;
      calc {
        FrameDeltas(Run(l, ticks, lib));
        == { RunDeltasFirst(l, ticks, lib); }
        [ticks[0].now - l.prior] + FrameDeltas(Run(next, ticks[1..], lib));
        == { RunDeltas(next, ticks[1..], lib); }
        [ticks[0].now - l.prior] + Deltas(ticks[0].now, Stamps(ticks[1..]));
        == { DeltasFirst(l.prior, ticks); }
        Deltas(l.prior, Stamps(ticks));
      }
    }
  }

  /** The loop after a run is the loop after the run that starts from
      the first frame's. */
  lemma AfterFirst(l: Loop, ticks: seq<Tick>, lib: Foreign)
    requires ticks != []
    ensures var next := Render(l, ticks[0], lib).next;
      After(l, Run(l, ticks, lib)) == After(next, Run(next, ticks[1..], lib))
  {
    RunFirst(l, ticks, lib);
  }

  /** The loop after a sequence of callbacks, by the bookkeeping alone. */
  function Clock(l: Loop, ticks: seq<Tick>): Loop
    decreases |ticks|
  {
    if ticks == [] then l else Clock(Tock(l, ticks[0]), ticks[1..])
  }

  /** The loop after the frames is the bookkeeping's. */
  lemma {:induction false} RunClock(l: Loop, ticks: seq<Tick>, lib: Foreign)
    ensures After(l, Run(l, ticks, lib)) == Clock(l, ticks)
    decreases |ticks|
  {
    if ticks != [] {
      var next := Render(l, ticks[0], lib).next;
      AfterFirst(l, ticks, lib);
      RenderNext(l, ticks[0], lib);
      RunClock(next, ticks[1..], lib);
    }
  }

  /** By the bookkeeping, then ends at the last timestamp and the canvas
      at the last client size. */
  lemma {:induction false} ClockEnd(l: Loop, ticks: seq<Tick>)
    ensures Clock(l, ticks).prior == Last(l.prior, Stamps(ticks))
    ensures ticks != [] ==> Clock(l, ticks).scene.canvas == ticks[|ticks| - 1].client
    decreases |ticks|
  {
    if ticks != [] {
      var stamps := Stamps(ticks);
      ClockEnd(Tock(l, ticks[0]), ticks[1..]);
      assert stamps[0] == ticks[0].now && stamps[1..] == Stamps(ticks[1..]);
      assert Last(ticks[0].now, stamps[1..]) == Last(l.prior, stamps);
      if ticks[1..] != [] {
        assert ticks[1..][|ticks[1..]| - 1] == ticks[|ticks| - 1];
      }
    }
  }

  /** By the bookkeeping, each rotation grows by its rate times the time
      since the start, and the fields other than the rotation and the
      canvas keep their values. */
  lemma {:induction false} ClockTurns(l: Loop, ticks: seq<Tick>)
    ensures var end := Clock(l, ticks);
      && end.scene.rotation.x == l.scene.rotation.x + 0.001 * (end.prior - l.prior)
      && end.scene.rotation.y == l.scene.rotation.y + 0.0007 * (end.prior - l.prior)
      && end.scene.rotation.z == l.scene.rotation.z
      && end.scene.(rotation := l.scene.rotation, canvas := l.scene.canvas) == l.scene
    decreases |ticks|
  {
    if ticks != [] {
      ClockTurns(Tock(l, ticks[0]), ticks[1..]);
    }
  }

  /** After the frames, then is the last timestamp, the canvas has the last
      client size, and each rotation has grown by its rate times the time
      since the start. */
  lemma RunTotals(l: Loop, ticks: seq<Tick>, lib: Foreign)
    ensures var end := After(l, Run(l, ticks, lib));
      && end.prior == Last(l.prior, Stamps(ticks))
      && end.scene.rotation.x == l.scene.rotation.x + 0.001 * (end.prior - l.prior)
      && end.scene.rotation.y == l.scene.rotation.y + 0.0007 * (end.prior - l.prior)
      && end.scene.rotation.z == l.scene.rotation.z
      && (ticks != [] ==> end.scene.canvas == ticks[|ticks| - 1].client)
      && end.scene.(rotation := l.scene.rotation, canvas := l.scene.canvas) == l.scene
  {
    RunClock(l, ticks, lib);
    ClockEnd(l, ticks);
    ClockTurns(l, ticks);
  }

  /** From startRendering, the first frame's delta is its timestamp and the
      deltas the frames were given add up to the last timestamp. */
  lemma StartClock(scene: Renderer, ticks: seq<Tick>, lib: Foreign)
    ensures var frames := Run(Start(scene), ticks, lib);
      && (|frames| > 0 ==> frames[0].deltaTime == ticks[0].now)
      && Sum(FrameDeltas(frames)) == Last(0.0, Stamps(ticks))
  {
    RunDeltas(Start(scene), ticks, lib);
    DeltasSum(0.0, Stamps(ticks));
  }
}

=== FILE: tables.dfy ===
/** The vertex data tables the renderer uploads, kept for their contents
    and lengths: the bus colours of models/Bus/colors.js and the floor
    geometry and colours of models/floor/. */
module Tables {

  /** An element of a Uint8Array. */
  newtype byte = x: int | 0 <= x < 256

  /** Three components per vertex, as every vertexAttribPointer call reads them. */
  const ComponentsPerVertex: nat := 3

  /** n copies of the same three-component entry: each vertex is the entry. */
  function Repeat<T>(entry: seq<T>, n: nat): (r: seq<T>)
    requires |entry| == ComponentsPerVertex
    ensures |r| == ComponentsPerVertex * n
    ensures forall v :: 0 <= v < n ==>
      r[3 * v] == entry[0] && r[3 * v + 1] == entry[1] && r[3 * v + 2] == entry[2]
  {
    var r := seq(3 * n, k requires 0 <= k < 3 * n => entry[k % 3]);
    assert forall v :: 0 <= v < n ==> (3 * v) % 3 == 0 && (3 * v + 1) % 3 == 1 && (3 * v + 2) % 3 == 2;
    r
  }

  /** Amber (255, 193, 7) for each of the six vertices of the bus's five faces. */
  function BusColors(): seq<byte> {
    Repeat([255, 193, 7], 6 * 5)
  }

  /** Two triangles spanning the square [-500, 500]² at height 0. */
  function FloorGeometry(): seq<real> {
    [-500.0, 0.0, 500.0,
     500.0, 0.0, 500.0,
     -500.0, 0.0, -500.0,
     -500.0, 0.0, -500.0,
     500.0, 0.0, 500.0,
     500.0, 0.0, -500.0]
  }

  /** Grey (150, 150, 150) for each of the floor's six vertices. */
  function FloorColors(): seq<byte> {
    Repeat([150, 150, 150], 3 * 2)
  }

  /** The bus table holds 90 bytes, all amber. */
  lemma BusColorsContents()
    ensures |BusColors()| == 90
    ensures forall v :: 0 <= v < |BusColors()| / 3 ==>
      BusColors()[3 * v] == 255 && BusColors()[3 * v + 1] == 193 && BusColors()[3 * v + 2] == 7
  {
  }

  /** The floor tables hold 18 entries each; every floor vertex is a corner
      of the square at height 0 and every floor colour is grey. */
  lemma FloorContents()
    ensures |FloorGeometry()| == 18 && |FloorColors()| == 18
    ensures forall v :: 0 <= v < 6 ==>
      (FloorGeometry()[3 * v] == 500.0 || FloorGeometry()[3 * v] == -500.0)
      && FloorGeometry()[3 * v + 1] == 0.0
      && (FloorGeometry()[3 * v + 2] == 500.0 || FloorGeometry()[3 * v + 2] == -500.0)
    ensures forall k :: 0 <= k < |FloorColors()| ==> FloorColors()[k] == 150
  {
  }
}

=== FILE: wrappers.dfy ===
/** An optional value, for the foreign calls that may produce nothing. */
module Wrappers {

  datatype Option<+T> = None | Some(value: T) {

    /** The carried value, or the fallback for None. */
    function GetOr(default: T): T {
      match this
      case Some(v) => v
      case None => default
    }
  }
}
